=== FILE: README.md ===
# Spotify playlist exporter: a Dafny model

This project models the core of `my_spotify_playlists_downloader.py`, a
command-line script that exports a Spotify account's playlists and liked songs
to JSON files. The model covers:

- the three name functions:
  - `sanitize_filename`;
  - `normalize_playlist_name`, the comparison key used by `--playlist_name`;
  - `sanitize_playlist_name`, the file-name stem in split mode;
- the track mapper and paginator `_process_tracks_data`, with its two callers
  `get_playlist_tracks` and `get_user_saved_tracks`;
- the two exporters `export_liked_songs` and `export_playlists`, including
  which files they write and what each file holds afterwards;
- the run decisions of `main`:
  - the rejected `--playlist_name` / `--all_playlists` combination;
  - the rule that a blank name is no filter;
  - `should_export_playlists`;
  - the order of the two exports and how their totals are summed.

The remote catalog is a value. `Export.Library` holds:

- the playlist listing;
- the first page of every playlist the service can serve;
- the first page of the saved tracks;
- the current-user answer.

A page holds its items and says what fetching `next` yields: nothing, a
failure, or the next page.

The output directory is a map from file name to the list of records written
there. Python's Unicode tables are a parameter, `Text.UnicodeDb`:

- `str.lower` on one character;
- `str.isspace`;
- `unicodedata.category`.

`UnicodeDb.Wellformed` names the three facts about these tables that the
proofs use. `Scenarios.SampleDb` is a small concrete table that meets them.

The modules are:

- `Values`: JSON values;
- `Text`: `strip`, `lower`, `split`, `join` and filtering, with their laws;
- `Names`: the three name functions;
- `Tracks`: the mapper and the paginator;
- `Export`: the two exporters;
- `Cli`: the run decisions;
- `Scenarios`: worked examples.

Some behaviour of the code is easy to miss; the model follows it as written:

- **Liked-songs file name.** In split mode the liked-songs file is
  `<split_prefix>Liked_Songs.json`; otherwise it is
  `<single_prefix>liked_songs.json` (lines 349-352).
  `Export.LikedSongsFileName` models both. In split mode a playlist whose
  sanitized name is `Liked_Songs` is written to that same file
  (`Export.LikedSongsFileMeetsSplitName`).
- **Track URL fields.** A track record's URL fields are `spotify_url`, read
  from `external_urls.spotify`, and `spotify_uri`, read from `uri`
  (lines 227-229 and 241-242).
- **Split-mode collisions.** `sanitize_playlist_name` keeps case and inner
  spaces, so `"Road Trip"` and `"road   trip"` get different split-mode
  files. On a case-sensitive file system two playlists share a file exactly
  when their sanitized stems are equal, for example `"Mix"` and `"Mix 🎵"`
  (`Export.SplitFileNamesCollideIffSameStem`). `Export.WriteSplit` states what
  follows (lines 425-431): the last playlist written to a file wins.

## Model

| member | source | states |
|---|---|---|
| `Names.SanitizeFilename` | my_spotify_playlists_downloader.py:121-131 | The result has the same length as the name. Every reserved character (the nine characters backslash, slash, `*`, `?`, `:`, `"`, `<`, `>` and the vertical bar) becomes `_`, every other character is kept in place, and no reserved character remains. |
| `Names.SanitizeFilenameFixpoint` | my_spotify_playlists_downloader.py:121-131 | A name is left unchanged exactly when it holds no reserved character. Sanitizing twice is the same as sanitizing once. |
| `Names.NormalizePlaylistName` | my_spotify_playlists_downloader.py:134-145 | An empty name gives an empty key. Every key has no whitespace at either end, and every whitespace character in it is a single space between two non-space characters. |
| `Names.NormalizeAsWords` | my_spotify_playlists_downloader.py:143-145 | The key is the whitespace-separated words of the lower-cased name joined by single spaces. Stripping first changes nothing. |
| `Names.NormalizeMatchIffSameWords` | my_spotify_playlists_downloader.py:134-145 | Two names get the same key if and only if their lower-cased forms split into the same words. Case and the length and placement of whitespace are ignored, and nothing else is. |
| `Names.NormalizeIgnoresCase` | my_spotify_playlists_downloader.py:145 | Names that lower-case to the same string get the same key. |
| `Names.NormalizeEmptyIffBlank` | my_spotify_playlists_downloader.py:143-145 | The key is empty if and only if the name is empty or all whitespace. |
| `Names.NormalizeIdempotent` | my_spotify_playlists_downloader.py:134-145 | Normalizing a key gives the same key back. |
| `Names.SanitizePlaylistName` | my_spotify_playlists_downloader.py:148-168 | The stem is a subsequence of the name: characters are only deleted, so case and accents stay. It holds no Other- or Symbol-category character and no reserved character, and it has no whitespace at either end. Its non-space characters are exactly the name's characters that are not whitespace, not reserved and not of those categories, in order. It is one contiguous slice of the name's valid, unreserved characters, so whitespace between words is kept. |
| `Names.SanitizePlaylistNameFixpoint` | my_spotify_playlists_downloader.py:148-168 | A name that is already clean and trimmed is its own stem. Sanitizing twice is the same as sanitizing once. |
| `Text.Strip` | my_spotify_playlists_downloader.py:168 | `str.strip()` returns the contiguous slice after the leading whitespace. The slice is trimmed and keeps every non-whitespace character of the input. |
| `Text.WordsOfJoin` | my_spotify_playlists_downloader.py:145 | `split()` undoes `' '.join` of a list of non-empty, whitespace-free words. |
| `Tracks.ArtistNames` | my_spotify_playlists_downloader.py:219 | The list comprehension raises if and only if some entry is not a mapping. Otherwise it keeps only truthy names, each one non-empty, and at most one per entry. |
| `Tracks.ArtistNamesInOrder` | my_spotify_playlists_downloader.py:219 | When nothing raises, the names are exactly the names of the entries that are mappings with a truthy name, one each and in list order, as an independent filter over the list selects them. |
| `Tracks.ArtistNamesAllNamed` | my_spotify_playlists_downloader.py:219 | When every artist has a non-empty name, every name is kept, in list order. |
| `Tracks.ArtistField` | my_spotify_playlists_downloader.py:218-221 | Extraction raises if and only if `artists` is `null` or holds a non-mapping. An absent `artists`, or one with no truthy name, gives `"Unknown Artist"`. Otherwise the field is the names joined by `", "`, so it starts with the first name. It is never empty. |
| `Tracks.AlbumFields` | my_spotify_playlists_downloader.py:223-225 | `album` raises if and only if it is `null` or not a mapping. An absent `album` reads as `{}` and gives `"Unknown Album"` and `""`. In a present album, a missing `name` gives `"Unknown Album"` and a missing `release_date` gives `""`. A present value passes through, and a `null` one stays `null`. |
| `Tracks.SpotifyUrl` | my_spotify_playlists_downloader.py:227-228 | `external_urls` raises if and only if it is `null` or not a mapping. An absent one gives `""`, and so does a present mapping without `spotify`. A present `spotify` value passes through, and a `null` one stays `null`. |
| `Tracks.AddedById` | my_spotify_playlists_downloader.py:232-233 | `added_by` raises if and only if it is a truthy non-mapping. An absent or falsy one gives `null`. The result is a string exactly when `added_by` is a mapping with an `id` string, and then it is that id. |
| `Tracks.ExtractTrack` | my_spotify_playlists_downloader.py:209-250 | An item is skipped if and only if its track is falsy, and it fails if and only if one of the lookups raises. Otherwise it yields a record at exactly the running position, and every field is fixed. The name is `track.get('name', 'Unknown Track')`. The artist is the `artist` field of the track's `artists`. Album name and release date are those of `AlbumFields`, and the URL is that of `SpotifyUrl`. The URI and `added_at` default to `""` only when absent. `added_by` is that of `AddedById`. An explicit `null` passes through. |
| `Tracks.MapItems` | my_spotify_playlists_downloader.py:204-250 | There are at most as many records as items, and their positions are consecutive from the start value. |
| `Tracks.MapItemsEmitsInOrder` | my_spotify_playlists_downloader.py:207-250 | The records correspond one to one, in order, to the items that neither lack a track nor raise. Record `i` is what the `i`-th such item maps to at position `i`. |
| `Tracks.MapItemsAppend` | my_spotify_playlists_downloader.py:204-256 | Mapping two runs of items one after the other is the same as mapping their concatenation: the position counter carries over. |
| `Tracks.ProcessTracksData` | my_spotify_playlists_downloader.py:191-259 | The loop over pages and items gives exactly the records of the items of every fetched page, as `MapItems` maps them from position 0, with positions `0..N-1`. `N` is at most the number of fetched items. |
| `Tracks.GetPlaylistTracks` | my_spotify_playlists_downloader.py:262-280 | A failed first fetch gives `[]`. Otherwise the result is exactly the items of every fetched page mapped from position 0 by `MapItems`, at most one record per item. |
| `Tracks.GetUserSavedTracks` | my_spotify_playlists_downloader.py:283-300 | A failed first fetch gives `[]`. Otherwise the result is exactly the items of every fetched saved-tracks page mapped from position 0 by `MapItems`, at most one record per item. |
| `Tracks.PagesInOrder` | my_spotify_playlists_downloader.py:207-256 | The first page's tracks come first. The next pages' tracks follow, with positions continuing from there. |
| `Tracks.FailedNextKeepsEarlierTracks` | my_spotify_playlists_downloader.py:252-256 | When fetching `next` fails partway, the walk ends without losing anything. The tracks are a prefix of the unbroken chain's tracks, and they include all of the first page's tracks. |
| `Export.ActiveFilter` | my_spotify_playlists_downloader.py:388-389 | A filter is in force only when the given name's normalized key is non-empty. The filter is then that key. |
| `Export.SelectPlaylists` | my_spotify_playlists_downloader.py:390-399 | The selection is the listing filtered by the match predicate, as an independent filter over the listing computes it. So it is a subsequence of the listing, every selected playlist matches the key, and every matching playlist is selected. Without a filter the whole listing is selected. |
| `Export.PlaylistRecord` | my_spotify_playlists_downloader.py:406-423 | A playlist's record copies its name, id, owner id and owner display name from the listing. Its tracks are those that `get_playlist_tracks` fetches for its id. Description and snapshot id become `""` only when the key is absent, and an explicit `null` stays `null`. |
| `Export.PlaylistRecords` | my_spotify_playlists_downloader.py:406-423 | There is one record per selected playlist, in order, each built from that playlist and its fetched tracks. |
| `Export.WriteSplit` | my_spotify_playlists_downloader.py:425-431 | Split writes add exactly the sanitized file names and leave every other file as it was. Each file holds the last record written to it. |
| `Export.SplitFileNameShape` | my_spotify_playlists_downloader.py:426 | A split-mode file name is the split prefix, then a stem with no reserved character and no Other- or Symbol-category character, then `.json`. |
| `Export.SplitFileNamesCollideIffSameStem` | my_spotify_playlists_downloader.py:425-431 | Two playlists get the same split-mode file if and only if their sanitized names are equal. |
| `Export.CombinedFileName` | my_spotify_playlists_downloader.py:436-440 | The combined file is the single prefix followed by `filtered_spotify_playlists.json` when a filter is in force, and by `spotify_playlists.json` otherwise. |
| `Export.LikedSongsFileName` | my_spotify_playlists_downloader.py:349-352 | In split mode the liked-songs file is the split prefix followed by `Liked_Songs.json`. Otherwise it is the single prefix followed by `liked_songs.json`. |
| `Export.CombinedFilesApart` | my_spotify_playlists_downloader.py:349-352 | In combined mode the liked-songs file, the filtered playlists file and the unfiltered playlists file are three different files, so neither export overwrites the other. |
| `Export.LikedSongsFileMeetsSplitName` | my_spotify_playlists_downloader.py:349-352 | In split mode the liked-songs file is the file of a playlist if and only if that playlist's sanitized name is `Liked_Songs`. |
| `Export.ExportPlaylists` | my_spotify_playlists_downloader.py:361-446 | At most one collection per listed playlist is exported. Without a filter in force, every listed playlist is exported. Zero collections means `(0, 0)` and an untouched directory. |
| `Export.ExportPlaylistsNoMatch` | my_spotify_playlists_downloader.py:402-404 | A filter in force that no playlist's key equals gives `(0, 0)` and writes nothing. |
| `Export.ExportPlaylistsCombined` | my_spotify_playlists_downloader.py:436-444 | In combined mode exactly one file changes. Its name says whether a filter was in force, and it holds one record per selected playlist. The counts returned are those of its content. |
| `Export.ExportPlaylistsSplit` | my_spotify_playlists_downloader.py:425-431 | In split mode the counts cover every selected playlist. The files written are exactly the selected playlists' split names, every other file is left as it was, and each written file holds only the last playlist written to it. |
| `Export.ExportThreePlaylists` | my_spotify_playlists_downloader.py:406-446 | Three playlists with 10, 0 and 5 tracks and no filter give `(3, 15)`. |
| `Export.LikedSongsOwner` | my_spotify_playlists_downloader.py:327-335 | A failed identity lookup gives `"unknown"` and `"Unknown User"`. Otherwise the owner id is the user's id when present, `null` when `null`, and `"unknown"` when missing. The owner name is a truthy display name when there is one, and otherwise the owner id. |
| `Export.LikedSongsRecord` | my_spotify_playlists_downloader.py:337-345 | The liked-songs record is named `"Liked Songs"` with id `"liked_songs"` and description `"Your liked songs from Spotify"`. Its snapshot id is `""`, its owner is as `LikedSongsOwner` gives it, and its tracks are the given tracks. |
| `Export.ExportLikedSongs` | my_spotify_playlists_downloader.py:303-358 | No saved tracks gives `(0, 0)` and no write. Otherwise the result is `(1, n)`, and the liked-songs file is the only file touched. It holds exactly one record, the liked-songs record around the `n > 0` saved tracks. |
| `Cli.PlaylistFilter` | my_spotify_playlists_downloader.py:508 | The filter is the given name when that name has a non-whitespace character. It is none when no name was given or the name is blank. |
| `Cli.ShouldExportPlaylists` | my_spotify_playlists_downloader.py:524 | Playlists are exported whenever `--liked_songs` is not given. With `--liked_songs` they are exported exactly when a filter is in force or `--all_playlists` is set. |
| `Cli.Run` | my_spotify_playlists_downloader.py:474-535 | A run fails before any fetch or write if and only if a truthy `--playlist_name` comes with `--all_playlists`. Without `--liked_songs`, a run is exactly the playlist export with the filter. |
| `Cli.LikedSongsAloneSkipsPlaylists` | my_spotify_playlists_downloader.py:522-524 | `--liked_songs` with no name and no `--all_playlists` exports only the liked songs. |
| `Cli.LikedSongsWithPlaylists` | my_spotify_playlists_downloader.py:514-532 | `--liked_songs` with a filter in force or `--all_playlists` exports the liked songs first. The playlist export then writes into the directory that left, and each total is the sum of the two exports' totals. |
| `Cli.BlankNameIsNoFilter` | my_spotify_playlists_downloader.py:474-508 | A blank `--playlist_name` behaves as if absent. A non-empty blank name still conflicts with `--all_playlists`. |
| `Cli.GivenFilterIsActive` | my_spotify_playlists_downloader.py:388-389 | A name that survives the blank rule is always a filter in force inside the playlist export. |
| `Cli.NoFlagsExportsAllPlaylists` | my_spotify_playlists_downloader.py:524-535 | With no name and no `--liked_songs`, every listed playlist is exported. |
| `Scenarios.NormalizeExample` | my_spotify_playlists_downloader.py:134-145 | `"  My   Mix "` and `"MY MIX"` both have the key `"my mix"`. |
| `Scenarios.SanitizeExample` | my_spotify_playlists_downloader.py:148-168 | The stem of `" Mé/x 🎵"` is `"Méx"`: the emoji and the slash are dropped and the ends trimmed. |

## Left out

- **I/O and configuration.** The model leaves out:
  - OAuth and client construction;
  - environment loading (`load_env`);
  - logging, timing and the `--clean_output` deletion;
  - directory creation;
  - JSON text formatting.

  A write is a map update with the records as values.
- **The report builder.** It only reads counters and is not part of this model.
- **`get_all_playlists`.** The listing is given as one flat sequence. The source
  does not catch a failure there, so such a failure ends the script.
- Text.Lower: it maps one character to one character with no context, so
  two behaviours of `str.lower` are not modelled. Case mappings that change
  length (such as U+0130) are left out. So is the final-sigma rule: Python
  lower-cases `Σ` to `ς` at the end of a word and to `σ` elsewhere, so that
  `"ΟΔΟΣ"` and `"οδοσ"` get different keys in Python but the same key under
  a table mapping `Σ` to `σ`.
- **Failing writes.** Every write in the model succeeds. In the source,
  `write_text` can raise `OSError`, for example when a split-mode stem is
  longer than the file system allows (lines 355, 429 and 443). That ends the run.
- **Unicode facts as assumptions.** The `Names` lemmas that need `Wellformed`
  assume that lower-casing keeps whitespace whitespace and is idempotent.
- **Track values of other JSON types.** Non-string values in string fields,
  and `artists` given as a string or a mapping (which Python would iterate), are
  not modelled. Every raw field is absent, `null`, a string, or the expected
  structure or a non-mapping.
- **Malformed pages and items.** A page whose `items` key is missing or
  `null`, and a non-mapping item (`item.get` raising outside the `try`), are not
  modelled: the latter ends the script.
- **Assumed playlist keys.** Listed playlists are assumed to carry `name`, `id`
  and `owner.id`, and `owner.display_name` may be `null`. A missing key there
  raises `KeyError` and ends the script.
- Export.WriteSplit: the directory is keyed by exact strings, so a
  case-insensitive file system (Windows, or macOS by default), where `Mix.json`
  and `mix.json` are one file, is not modelled.
- Names.SanitizePlaylistName: a Dafny `char` cannot be a lone surrogate, so
  the dropping of `Cs`-category characters (line 162) has no input to act on.
- Cli.Run: the summary messages after the export
  (lines 537-552) only log, so the contract covers what is returned and written.

=== FILE: cli.dfy ===
/**
 The run-selection decisions of the entry point: the rejected flag
 combination, the blank-name rule, whether playlists are exported at all, and
 the order of the two exports with their totals.
 */
module Cli {
  import opened Values
  import opened Text
  import opened Names
  import opened Export

  /** The command-line flags that steer an export (`--split`, `--playlist_name`, `--liked_songs`, `--all_playlists`). */
  datatype Args = Args(split: bool, playlistName: Option<string>, likedSongs: bool, allPlaylists: bool)

  /** The configured file-name prefixes. */
  datatype Prefixes = Prefixes(split: string, single: string)

  /** `--playlist_name` (when truthy, even if blank) together with `--all_playlists`. */
  predicate ArgsConflict(args: Args)
  {
    Truthy(args.playlistName) && args.allPlaylists
  }

  /** The name filter handed to the playlist export: the given name unless it is missing, empty or blank. */
  function PlaylistFilter(u: UnicodeDb, args: Args): (f: Option<string>)
    ensures f.Some? ==> args.playlistName == f && exists i :: 0 <= i < |f.value| && !u.isSpace(f.value[i])
    ensures f.None? && args.playlistName.Some? ==> forall i :: 0 <= i < |args.playlistName.value| ==> u.isSpace(args.playlistName.value[i])
  {
    if Truthy(args.playlistName) && Strip(u, args.playlistName.value) != "" then
      args.playlistName
    else
      StripEmptyIffBlank(u, if args.playlistName.Some? then args.playlistName.value else "");
      None
  }

  /**
   Playlists are skipped only when liked songs were asked for with neither a
   name filter in force nor `--all_playlists`; a run without `--liked_songs`
   always exports playlists.
   */
  function ShouldExportPlaylists(args: Args, filter: Option<string>): (b: bool)
    ensures !args.likedSongs ==> b
    ensures args.likedSongs && filter.None? && !args.allPlaylists ==> !b
    ensures args.likedSongs && (filter.Some? || args.allPlaylists) ==> b
  {
    !args.likedSongs || filter.Some? || args.allPlaylists
  }

  /**
   One run: a conflicting flag combination is rejected before anything is
   fetched or written; otherwise the liked songs are exported first when asked
   for, then the playlists when `ShouldExportPlaylists` holds, writing into the
   directory the first export left, and the totals are the two results summed.
   */
  function Run(u: UnicodeDb, args: Args, prefixes: Prefixes, lib: Library, dir: Directory): (r: Result<Outcome>)
    ensures r.Failure? <==> ArgsConflict(args)
    ensures r.Success? && !args.likedSongs ==>
      r.value == ExportPlaylists(u, lib, args.split, prefixes.split, prefixes.single, PlaylistFilter(u, args), dir)
  {
    if ArgsConflict(args) then Failure
    else
      var filter := PlaylistFilter(u, args);
      var liked := if args.likedSongs then ExportLikedSongs(lib, args.split, prefixes.split, prefixes.single, dir)
                   else Outcome(0, 0, dir);
      var playlists := if ShouldExportPlaylists(args, filter)
                       then ExportPlaylists(u, lib, args.split, prefixes.split, prefixes.single, filter, liked.dir)
                       else Outcome(0, 0, liked.dir);
      Success(Outcome(liked.collections + playlists.collections, liked.tracks + playlists.tracks, playlists.dir))
  }

  /** `--liked_songs` alone exports the liked songs and no playlist. */
  lemma LikedSongsAloneSkipsPlaylists(u: UnicodeDb, args: Args, prefixes: Prefixes, lib: Library, dir: Directory)
    requires args.likedSongs && !args.allPlaylists
    requires args.playlistName.None?
    ensures Run(u, args, prefixes, lib, dir) == Success(ExportLikedSongs(lib, args.split, prefixes.split, prefixes.single, dir))
  {
  }

  /**
   `--liked_songs` with a name filter in force or with `--all_playlists`: the
   liked songs are exported first, the playlist export then writes into the
   directory that left, and the totals add up.
   */
  lemma LikedSongsWithPlaylists(u: UnicodeDb, args: Args, prefixes: Prefixes, lib: Library, dir: Directory)
    requires args.likedSongs && !ArgsConflict(args)
    requires PlaylistFilter(u, args).Some? || args.allPlaylists
    ensures Run(u, args, prefixes, lib, dir).Success?
    ensures
      var liked := ExportLikedSongs(lib, args.split, prefixes.split, prefixes.single, dir);
      var playlists := ExportPlaylists(u, lib, args.split, prefixes.split, prefixes.single, PlaylistFilter(u, args), liked.dir);
      Run(u, args, prefixes, lib, dir).value
        == Outcome(liked.collections + playlists.collections, liked.tracks + playlists.tracks, playlists.dir)
  {
  }

  /**
   A blank `--playlist_name` is the same as none, except that it still
   conflicts with `--all_playlists` when it is non-empty.
   */
  lemma {:induction false} BlankNameIsNoFilter(u: UnicodeDb, args: Args, prefixes: Prefixes, lib: Library, dir: Directory)
    requires args.playlistName.Some?
    requires forall i :: 0 <= i < |args.playlistName.value| ==> u.isSpace(args.playlistName.value[i])
    ensures !args.allPlaylists ==>
      Run(u, args, prefixes, lib, dir) == Run(u, args.(playlistName := None), prefixes, lib, dir)
    ensures args.allPlaylists && args.playlistName.value != "" ==> Run(u, args, prefixes, lib, dir).Failure?
  {
    StripEmptyIffBlank(u, args.playlistName.value);
  }

  /**
   A name that survives the blank rule is always a filter in force inside the
   playlist export: its normalized key is non-empty.
   */
  lemma {:induction false} GivenFilterIsActive(u: UnicodeDb, args: Args)
    requires u.Wellformed()
    requires PlaylistFilter(u, args).Some?
    ensures ActiveFilter(u, PlaylistFilter(u, args)).Some?
  {
    NormalizeEmptyIffBlank(u, args.playlistName.value);
  }

  /** With neither a name nor `--liked_songs`, every listed playlist is exported. */
  lemma NoFlagsExportsAllPlaylists(u: UnicodeDb, args: Args, prefixes: Prefixes, lib: Library, dir: Directory)
    requires !args.likedSongs && args.playlistName.None?
    ensures Run(u, args, prefixes, lib, dir).Success?
    ensures Run(u, args, prefixes, lib, dir).value.collections == |lib.playlists|
  {
  }
}

=== FILE: export.dfy ===
/**
 The collection exporter: which playlists a run selects, the records built
 for them and for the liked songs, and which files end up holding what. The
 output directory is a map from file name to the list of collection records
 written there; a write replaces the whole file.
 */
module Export {
  import opened Values
  import opened Text
  import opened Names
  import opened Tracks

  /** A playlist's `owner` object. */
  datatype Owner = Owner(id: string, displayName: Option<string>)

  /** One playlist of the account's listing. */
  datatype PlaylistMeta = PlaylistMeta(name: string, id: string, owner: Owner, description: Field<string>, snapshotId: Field<string>)

  /** The answer to the current-user lookup. */
  datatype UserInfo = UserInfo(id: Field<string>, displayName: Field<string>)

  /**
   What the catalog service answers: the playlist listing, the first page of
   each playlist id it can serve (an id missing here fails), the first page of
   the saved tracks (`None` when that fetch fails), and the current user
   (`None` when that lookup fails).
   */
  datatype Library = Library(
    playlists: seq<PlaylistMeta>,
    playlistItems: map<string, Page>,
    savedTracks: Option<Page>,
    currentUser: Option<UserInfo>)

  /** One exported collection, with the keys of the written JSON object. */
  datatype CollectionRecord = CollectionRecord(
    playlistName: string,
    playlistId: string,
    ownerId: Option<string>,
    owner: Option<string>,
    description: Option<string>,
    snapshotId: Option<string>,
    tracks: seq<TrackRecord>)

  /** The output directory: file name to the JSON array of records it holds. */
  type Directory = map<string, seq<CollectionRecord>>

  /** What an export operation returns, `(collections, tracks)`, and the directory after its writes. */
  datatype Outcome = Outcome(collections: nat, tracks: nat, dir: Directory)

  const LIKED_SONGS_NAME := "Liked Songs"
  const LIKED_SONGS_ID := "liked_songs"
  const LIKED_SONGS_DESCRIPTION := "Your liked songs from Spotify"
  const UNKNOWN_USER_ID := "unknown"
  const UNKNOWN_USER_NAME := "Unknown User"

  // ---------------------------------------------------------------------
  // Selection
  // ---------------------------------------------------------------------

  /** The filter in force: the normalized name when it is non-empty, otherwise none. */
  function ActiveFilter(u: UnicodeDb, filter: Option<string>): (key: Option<string>)
    ensures key.Some? ==> key.value != "" && filter.Some? && key.value == NormalizePlaylistName(u, filter.value)
    ensures key.None? ==> filter.None? || NormalizePlaylistName(u, filter.value) == ""
  {
    if filter.Some? && filter.value != "" then
      var normalized := NormalizePlaylistName(u, filter.value);
      if normalized != "" then Some(normalized) else None
    else None
  }

  /** A playlist passes the filter: there is none, or its normalized name equals the key exactly. */
  predicate Matches(u: UnicodeDb, key: Option<string>, p: PlaylistMeta)
  {
    key.None? || NormalizePlaylistName(u, p.name) == key.value
  }

  function MatchesFn(u: UnicodeDb, key: Option<string>): PlaylistMeta -> bool
  {
    p => Matches(u, key, p)
  }

  /**
   The playlists to export: exactly the listed playlists that pass the
   filter, in listing order; without a filter, the whole listing.
   */
  function SelectPlaylists(u: UnicodeDb, playlists: seq<PlaylistMeta>, key: Option<string>): (r: seq<PlaylistMeta>)
    ensures key.None? ==> r == playlists
    ensures r == Filter(MatchesFn(u, key), playlists)
    ensures IsSubsequence(r, playlists)
    ensures forall i :: 0 <= i < |r| ==> Matches(u, key, r[i])
    ensures forall i :: 0 <= i < |playlists| && Matches(u, key, playlists[i]) ==> playlists[i] in r
    decreases |playlists|
  {
    if playlists == [] then []
    else
      var rest := SelectPlaylists(u, playlists[1..], key);
      if Matches(u, key, playlists[0]) then
        SubsequenceReflexive(playlists);
        [playlists[0]] + rest
      else rest
  }

  // ---------------------------------------------------------------------
  // Records and file names
  // ---------------------------------------------------------------------

  /**
   The record for one playlist: name, id and owner copied from the listing,
   description and snapshot id defaulting to `""` only when the key is absent
   (an explicit `null` stays `null`), and the tracks fetched by the playlist's id.
   */
  function PlaylistRecord(lib: Library, p: PlaylistMeta): (r: CollectionRecord)
    ensures r.playlistName == p.name && r.playlistId == p.id
    ensures r.ownerId == Some(p.owner.id) && r.owner == p.owner.displayName
    ensures p.description.Absent? ==> r.description == Some("")
    ensures p.description.Null? ==> r.description == None
    ensures p.description.Present? ==> r.description == Some(p.description.value)
    ensures p.snapshotId.Absent? ==> r.snapshotId == Some("")
    ensures p.snapshotId.Null? ==> r.snapshotId == None
    ensures p.snapshotId.Present? ==> r.snapshotId == Some(p.snapshotId.value)
    ensures r.tracks == GetPlaylistTracks(lib.playlistItems, p.id)
    ensures p.id !in lib.playlistItems ==> r.tracks == []
  {
    CollectionRecord(p.name, p.id, Some(p.owner.id), p.owner.displayName,
                     GetOr(p.description, ""), GetOr(p.snapshotId, ""),
                     GetPlaylistTracks(lib.playlistItems, p.id))
  }

  function PlaylistRecords(lib: Library, ps: seq<PlaylistMeta>): (recs: seq<CollectionRecord>)
    ensures |recs| == |ps|
    ensures forall i :: 0 <= i < |ps| ==> recs[i] == PlaylistRecord(lib, ps[i])
  {
    if ps == [] then [] else [PlaylistRecord(lib, ps[0])] + PlaylistRecords(lib, ps[1..])
  }

  /** The number of tracks across a list of records. */
  function TotalTracks(recs: seq<CollectionRecord>): nat
  {
    if recs == [] then 0 else |recs[0].tracks| + TotalTracks(recs[1..])
  }

  lemma {:induction false} TotalTracksAppend(a: seq<CollectionRecord>, b: seq<CollectionRecord>)
    ensures TotalTracks(a + b) == TotalTracks(a) + TotalTracks(b)
    decreases |a|
  {
    if a == [] {
      assert a + b == b;
    } else {
      assert (a + b)[1..] == a[1..] + b;
      TotalTracksAppend(a[1..], b);
    }
  }

  /** The split-mode file of a playlist: prefix, sanitized name, `.json`. */
  function SplitFileName(u: UnicodeDb, prefix: string, name: string): string
  {
    prefix + SanitizePlaylistName(u, name) + ".json"
  }

  /**
   A split-mode file name is the prefix, then a stem free of reserved and
   dropped-category characters, then `.json`.
   */
  lemma {:induction false} SplitFileNameShape(u: UnicodeDb, prefix: string, name: string)
    ensures var r := SplitFileName(u, prefix, name);
      && |r| == |prefix| + |SanitizePlaylistName(u, name)| + 5
      && r[..|prefix|] == prefix && r[|r| - 5..] == ".json"
      && forall i :: |prefix| <= i < |r| - 5 ==> IsValidChar(u, r[i]) && !IsReserved(r[i])
  {
    var stem := SanitizePlaylistName(u, name);
    var r := prefix + stem + ".json";
    forall i | |prefix| <= i < |r| - 5
      ensures IsValidChar(u, r[i]) && !IsReserved(r[i])
    {
      assert r[i] == stem[i - |prefix|];
    }
  }

  /** Two playlists share a split-mode file exactly when their sanitized stems are equal. */
  lemma {:induction false} SplitFileNamesCollideIffSameStem(u: UnicodeDb, prefix: string, a: string, b: string)
    ensures SplitFileName(u, prefix, a) == SplitFileName(u, prefix, b)
        <==> SanitizePlaylistName(u, a) == SanitizePlaylistName(u, b)
  {
    SameFrameIffSameMiddle(prefix, SanitizePlaylistName(u, a), SanitizePlaylistName(u, b), ".json");
  }

  /** The combined-mode file; its name tells whether a filter was in force. */
  function CombinedFileName(prefix: string, filtered: bool): (r: string)
    ensures filtered ==> |r| == |prefix| + 31
    ensures !filtered ==> |r| == |prefix| + 22
    ensures r[..|prefix|] == prefix
    ensures filtered ==> r[|prefix|..] == "filtered_spotify_playlists.json"
    ensures !filtered ==> r[|prefix|..] == "spotify_playlists.json"
  {
    prefix + (if filtered then "filtered_spotify_playlists.json" else "spotify_playlists.json")
  }

  /** The liked-songs file: its own literal name under the split or the single prefix. */
  function LikedSongsFileName(split: bool, prefixSplit: string, prefixSingle: string): (r: string)
    ensures |r| == (if split then |prefixSplit| else |prefixSingle|) + 16
    ensures split ==> r[..|prefixSplit|] == prefixSplit && r[|prefixSplit|..] == "Liked_Songs.json"
    ensures !split ==> r[..|prefixSingle|] == prefixSingle && r[|prefixSingle|..] == "liked_songs.json"
  {
    if split then prefixSplit + "Liked_Songs.json" else prefixSingle + "liked_songs.json"
  }

  /**
   In combined mode the liked-songs file and the two playlist files are
   distinct, so exporting both never overwrites one with the other.
   */
  lemma CombinedFilesApart(prefix: string, prefixSplit: string)
    ensures CombinedFileName(prefix, true) != CombinedFileName(prefix, false)
    ensures LikedSongsFileName(false, prefixSplit, prefix) != CombinedFileName(prefix, true)
    ensures LikedSongsFileName(false, prefixSplit, prefix) != CombinedFileName(prefix, false)
  {
    var liked := LikedSongsFileName(false, prefixSplit, prefix);
    assert |liked| == |prefix| + 16;
  }

  /**
   In split mode the liked-songs file is the file of any playlist whose
   sanitized name is `Liked_Songs`, and of no other playlist.
   */
  lemma {:induction false} LikedSongsFileMeetsSplitName(u: UnicodeDb, prefixSplit: string, prefixSingle: string, name: string)
    ensures LikedSongsFileName(true, prefixSplit, prefixSingle) == SplitFileName(u, prefixSplit, name)
        <==> SanitizePlaylistName(u, name) == "Liked_Songs"
  {
    assert LikedSongsFileName(true, prefixSplit, prefixSingle) == prefixSplit + "Liked_Songs" + ".json";
    SameFrameIffSameMiddle(prefixSplit, "Liked_Songs", SanitizePlaylistName(u, name), ".json");
  }

  /** Two strings with the same prefix and suffix are equal exactly when their middles are. */
  lemma {:induction false} SameFrameIffSameMiddle(pre: string, a: string, b: string, post: string)
    ensures pre + a + post == pre + b + post <==> a == b
  {
    var x, y := pre + a + post, pre + b + post;
    if x == y {
      assert x[|pre|..|x| - |post|] == a;
      assert y[|pre|..|y| - |post|] == b;
    }
  }

  /** The split-mode file of a record. */
  function FileOf(u: UnicodeDb, prefix: string): CollectionRecord -> string
  {
    (rec: CollectionRecord) => SplitFileName(u, prefix, rec.playlistName)
  }

  /** The set of values `f` takes on the elements of `s`. */
  function Image<T, V>(f: T -> V, s: seq<T>): set<V>
  {
    set i | 0 <= i < |s| :: f(s[i])
  }

  /** The split-mode file names a list of records is written to. */
  function SplitNames(u: UnicodeDb, prefix: string, recs: seq<CollectionRecord>): set<string>
  {
    Image(FileOf(u, prefix), recs)
  }

  /**
   Split mode: each record is written, in order, as a one-element array to its
   own file. Afterwards every file some record was written to holds the LAST
   record written there, and every other file is as it was.
   */
  function WriteSplit(u: UnicodeDb, prefix: string, recs: seq<CollectionRecord>, dir: Directory): (r: Directory)
    ensures r.Keys == dir.Keys + SplitNames(u, prefix, recs)
    ensures forall k :: k in dir && k !in SplitNames(u, prefix, recs) ==> r[k] == dir[k]
    ensures forall i :: 0 <= i < |recs| && LastWithName(u, prefix, recs, i) ==>
      r[SplitFileName(u, prefix, recs[i].playlistName)] == [recs[i]]
    decreases |recs|
  {
    if recs == [] then dir
    else
      var file := SplitFileName(u, prefix, recs[0].playlistName);
      var r := WriteSplit(u, prefix, recs[1..], dir[file := [recs[0]]]);
      WriteSplitStep(u, prefix, recs, dir, r);
      r
  }

  /** No later record of the list is written to the same file as record `i`. */
  predicate LastWithName(u: UnicodeDb, prefix: string, recs: seq<CollectionRecord>, i: nat)
    requires i < |recs|
  {
    forall j :: i < j < |recs| ==> SplitFileName(u, prefix, recs[j].playlistName) != SplitFileName(u, prefix, recs[i].playlistName)
  }

  /** Lifts the contract of the write of `recs[1..]` to the write of all of `recs`. */
  lemma {:induction false} WriteSplitStep(u: UnicodeDb, prefix: string, recs: seq<CollectionRecord>, dir: Directory, r: Directory)
    requires recs != []
    requires
      var file := SplitFileName(u, prefix, recs[0].playlistName);
      var d := dir[file := [recs[0]]];
      && r.Keys == d.Keys + SplitNames(u, prefix, recs[1..])
      && (forall k :: k in d && k !in SplitNames(u, prefix, recs[1..]) ==> r[k] == d[k])
      && (forall i :: 0 <= i < |recs[1..]| && LastWithName(u, prefix, recs[1..], i) ==>
            r[SplitFileName(u, prefix, recs[1..][i].playlistName)] == [recs[1..][i]])
    ensures r.Keys == dir.Keys + SplitNames(u, prefix, recs)
    ensures forall k :: k in dir && k !in SplitNames(u, prefix, recs) ==> r[k] == dir[k]
    ensures forall i :: 0 <= i < |recs| && LastWithName(u, prefix, recs, i) ==>
      r[SplitFileName(u, prefix, recs[i].playlistName)] == [recs[i]]
  {
    WriteSplitStepFrame(u, prefix, recs, dir, r);
    WriteSplitStepLast(u, prefix, recs, dir, r);
  }

  /** The first two clauses of `WriteSplitStep`: which files exist, and that the others are untouched. */
  lemma {:induction false} WriteSplitStepFrame(u: UnicodeDb, prefix: string, recs: seq<CollectionRecord>, dir: Directory, r: Directory)
    requires recs != []
    requires
      var file := SplitFileName(u, prefix, recs[0].playlistName);
      var d := dir[file := [recs[0]]];
      && r.Keys == d.Keys + SplitNames(u, prefix, recs[1..])
      && (forall k :: k in d && k !in SplitNames(u, prefix, recs[1..]) ==> r[k] == d[k])
    ensures r.Keys == dir.Keys + SplitNames(u, prefix, recs)
    ensures forall k :: k in dir && k !in SplitNames(u, prefix, recs) ==> r[k] == dir[k]
  {
    var file := SplitFileName(u, prefix, recs[0].playlistName);
    SplitNamesCons(u, prefix, recs);
    UpdateThenWrite(dir, file, [recs[0]], SplitNames(u, prefix, recs[1..]), SplitNames(u, prefix, recs), r);
  }

  /**
   Writing `file` and then the files `later` is writing the files
   `{file} + later`: the same keys, and the same files left alone.
   */
  lemma UpdateThenWrite(dir: Directory, file: string, v: seq<CollectionRecord>, later: set<string>, all: set<string>, r: Directory)
    requires all == {file} + later
    requires r.Keys == dir[file := v].Keys + later
    requires forall k :: k in dir[file := v] && k !in later ==> r[k] == dir[file := v][k]
    ensures r.Keys == dir.Keys + all
    ensures forall k :: k in dir && k !in all ==> r[k] == dir[k]
  {
  }

  /** The third clause of `WriteSplitStep`: the last record written to a file is what it holds. */
  lemma {:induction false} WriteSplitStepLast(u: UnicodeDb, prefix: string, recs: seq<CollectionRecord>, dir: Directory, r: Directory)
    requires recs != []
    requires
      var file := SplitFileName(u, prefix, recs[0].playlistName);
      var d := dir[file := [recs[0]]];
      && r.Keys == d.Keys + SplitNames(u, prefix, recs[1..])
      && (forall k :: k in d && k !in SplitNames(u, prefix, recs[1..]) ==> r[k] == d[k])
      && (forall i :: 0 <= i < |recs[1..]| && LastWithName(u, prefix, recs[1..], i) ==>
            r[SplitFileName(u, prefix, recs[1..][i].playlistName)] == [recs[1..][i]])
    ensures forall i :: 0 <= i < |recs| && LastWithName(u, prefix, recs, i) ==>
      r[SplitFileName(u, prefix, recs[i].playlistName)] == [recs[i]]
  {
    forall i | 0 <= i < |recs| && LastWithName(u, prefix, recs, i)
      ensures r[SplitFileName(u, prefix, recs[i].playlistName)] == [recs[i]]
    {
      if i == 0 {
        LastWithNameHead(u, prefix, recs);
      } else {
        LastWithNameTail(u, prefix, recs, i);
        assert recs[1..][i - 1] == recs[i];
      }
    }
  }

  lemma {:induction false} SplitNamesCons(u: UnicodeDb, prefix: string, recs: seq<CollectionRecord>)
    requires recs != []
    ensures SplitNames(u, prefix, recs) == {SplitFileName(u, prefix, recs[0].playlistName)} + SplitNames(u, prefix, recs[1..])
  {
    ImageCons(FileOf(u, prefix), recs);
  }

  lemma {:induction false} ImageCons<T, V>(f: T -> V, s: seq<T>)
    requires s != []
    ensures Image(f, s) == {f(s[0])} + Image(f, s[1..])
  {
    var tail := s[1..];
    forall x | x in Image(f, s)
      ensures x in {f(s[0])} + Image(f, tail)
    {
      var i :| 0 <= i < |s| && x == f(s[i]);
      if i > 0 {
        assert x == f(tail[i - 1]);
      }
    }
    forall x | x in Image(f, tail)
      ensures x in Image(f, s)
    {
      var i :| 0 <= i < |tail| && x == f(tail[i]);
      assert x == f(s[i + 1]);
    }
  }

  lemma {:induction false} LastWithNameHead(u: UnicodeDb, prefix: string, recs: seq<CollectionRecord>)
    requires recs != [] && LastWithName(u, prefix, recs, 0)
    ensures SplitFileName(u, prefix, recs[0].playlistName) !in SplitNames(u, prefix, recs[1..])
  {
    var file, tail := SplitFileName(u, prefix, recs[0].playlistName), recs[1..];
    forall j | 0 <= j < |tail|
      ensures SplitFileName(u, prefix, tail[j].playlistName) != file
    {
      assert tail[j] == recs[j + 1];
    }
  }

  lemma {:induction false} LastWithNameTail(u: UnicodeDb, prefix: string, recs: seq<CollectionRecord>, i: nat)
    requires 0 < i < |recs| && LastWithName(u, prefix, recs, i)
    ensures LastWithName(u, prefix, recs[1..], i - 1)
  {
    var tail := recs[1..];
    forall j | i - 1 < j < |tail|
      ensures SplitFileName(u, prefix, tail[j].playlistName) != SplitFileName(u, prefix, tail[i - 1].playlistName)
    {
      assert tail[j] == recs[j + 1];
    }
  }

  // ---------------------------------------------------------------------
  // export_playlists
  // ---------------------------------------------------------------------

  /**
   `export_playlists`: selects by exact normalized name, reports `(0, 0)` and
   writes nothing when a filter matches no playlist, and otherwise returns the
   number of selected playlists and their total track count, writing one file
   per playlist in split mode or one combined file in combined mode.
   */
  function ExportPlaylists(u: UnicodeDb, lib: Library, split: bool, prefixSplit: string, prefixSingle: string,
                           filter: Option<string>, dir: Directory): (r: Outcome)
    ensures r.collections <= |lib.playlists|
    ensures ActiveFilter(u, filter).None? ==> r.collections == |lib.playlists|
    ensures r.collections == 0 ==> r == Outcome(0, 0, dir)
  {
    var key := ActiveFilter(u, filter);
    var selected := SelectPlaylists(u, lib.playlists, key);
    if key.Some? && selected == [] then Outcome(0, 0, dir)
    else
      var recs := PlaylistRecords(lib, selected);
      var total := TotalTracks(recs);
      SubsequenceLength(selected, lib.playlists);
      if split then Outcome(|selected|, total, WriteSplit(u, prefixSplit, recs, dir))
      else if selected != [] then Outcome(|selected|, total, dir[CombinedFileName(prefixSingle, key.Some?) := recs])
      else Outcome(0, 0, dir)
  }

  lemma {:induction false} SubsequenceLength<T>(a: seq<T>, b: seq<T>)
    requires IsSubsequence(a, b)
    ensures |a| <= |b|
    decreases |b|
  {
    if a != [] {
      if a[0] == b[0] && IsSubsequence(a[1..], b[1..]) {
        SubsequenceLength(a[1..], b[1..]);
      } else {
        SubsequenceLength(a, b[1..]);
      }
    }
  }

  /** A filter in force that no playlist's normalized name equals: `(0, 0)`, directory untouched. */
  lemma {:induction false} ExportPlaylistsNoMatch(u: UnicodeDb, lib: Library, split: bool, prefixSplit: string, prefixSingle: string,
                               filter: Option<string>, dir: Directory)
    requires ActiveFilter(u, filter).Some?
    requires forall i :: 0 <= i < |lib.playlists| ==> NormalizePlaylistName(u, lib.playlists[i].name) != ActiveFilter(u, filter).value
    ensures ExportPlaylists(u, lib, split, prefixSplit, prefixSingle, filter, dir) == Outcome(0, 0, dir)
  {
    var selected := SelectPlaylists(u, lib.playlists, ActiveFilter(u, filter));
    if selected != [] {
      assert Matches(u, ActiveFilter(u, filter), selected[0]);
      SubsequenceMembers(selected, lib.playlists, 0);
    }
  }

  /** Every element of a subsequence is an element of the sequence. */
  lemma {:induction false} SubsequenceMembers<T>(a: seq<T>, b: seq<T>, i: nat)
    requires IsSubsequence(a, b) && i < |a|
    ensures exists j :: 0 <= j < |b| && b[j] == a[i]
    decreases |b|
  {
    if a[0] == b[0] && IsSubsequence(a[1..], b[1..]) {
      if i > 0 {
        SubsequenceMembers(a[1..], b[1..], i - 1);
        var j :| 0 <= j < |b[1..]| && b[1..][j] == a[1..][i - 1];
        assert b[j + 1] == a[i];
      } else {
        assert b[0] == a[0];
      }
    } else {
      SubsequenceMembers(a, b[1..], i);
      var j :| 0 <= j < |b[1..]| && b[1..][j] == a[i];
      assert b[j + 1] == a[i];
    }
  }

  /**
   Combined mode, some playlist selected: exactly one file changes, named by
   whether a filter was in force, and it holds one record per selected
   playlist in listing order; the returned counts are those of its content.
   */
  lemma ExportPlaylistsCombined(u: UnicodeDb, lib: Library, prefixSplit: string, prefixSingle: string,
                                filter: Option<string>, dir: Directory)
    requires SelectPlaylists(u, lib.playlists, ActiveFilter(u, filter)) != []
    ensures var r := ExportPlaylists(u, lib, false, prefixSplit, prefixSingle, filter, dir);
      var file := CombinedFileName(prefixSingle, ActiveFilter(u, filter).Some?);
      && r.dir == dir[file := PlaylistRecords(lib, SelectPlaylists(u, lib.playlists, ActiveFilter(u, filter)))]
      && r.collections == |r.dir[file]| > 0
      && r.tracks == TotalTracks(r.dir[file])
  {
  }

  /**
   Split mode: the returned counts cover every selected playlist, while each
   file holds the last selected playlist written to it, so two playlists
   whose sanitized names coincide leave one file and the later one wins.
   */
  lemma ExportPlaylistsSplit(u: UnicodeDb, lib: Library, prefixSplit: string, prefixSingle: string,
                             filter: Option<string>, dir: Directory)
    ensures var r := ExportPlaylists(u, lib, true, prefixSplit, prefixSingle, filter, dir);
      var recs := PlaylistRecords(lib, SelectPlaylists(u, lib.playlists, ActiveFilter(u, filter)));
      && r.collections == |recs|
      && r.tracks == TotalTracks(recs)
      && r.dir.Keys == dir.Keys + SplitNames(u, prefixSplit, recs)
      && (forall k :: k in dir && k !in SplitNames(u, prefixSplit, recs) ==> r.dir[k] == dir[k])
      && (forall i :: 0 <= i < |recs| && LastWithName(u, prefixSplit, recs, i) ==>
            r.dir[SplitFileName(u, prefixSplit, recs[i].playlistName)] == [recs[i]])
  {
  }

  /** The listing-order scenario: three playlists holding 10, 0 and 5 tracks, no filter, give `(3, 15)`. */
  lemma {:induction false} ExportThreePlaylists(u: UnicodeDb, lib: Library, split: bool, prefixSplit: string, prefixSingle: string, dir: Directory)
    requires |lib.playlists| == 3
    requires |GetPlaylistTracks(lib.playlistItems, lib.playlists[0].id)| == 10
    requires |GetPlaylistTracks(lib.playlistItems, lib.playlists[1].id)| == 0
    requires |GetPlaylistTracks(lib.playlistItems, lib.playlists[2].id)| == 5
    ensures var r := ExportPlaylists(u, lib, split, prefixSplit, prefixSingle, None, dir);
      r.collections == 3 && r.tracks == 15
  {
    var recs := PlaylistRecords(lib, lib.playlists);
    assert recs == [recs[0]] + [recs[1]] + [recs[2]];
    TotalTracksAppend([recs[0]] + [recs[1]], [recs[2]]);
    TotalTracksAppend([recs[0]], [recs[1]]);
  }

  // ---------------------------------------------------------------------
  // export_liked_songs
  // ---------------------------------------------------------------------

  /**
   `(owner_id, owner)` for the liked songs: the user's id (or `"unknown"` when
   the key is missing) and the display name when non-empty, else the id; when
   the lookup fails, `"unknown"` and `"Unknown User"`.
   */
  function LikedSongsOwner(user: Option<UserInfo>): (r: (Option<string>, Option<string>))
    ensures user.None? ==> r == (Some(UNKNOWN_USER_ID), Some(UNKNOWN_USER_NAME))
    ensures user.Some? && user.value.id.Absent? ==> r.0 == Some(UNKNOWN_USER_ID)
    ensures user.Some? && user.value.id.Present? ==> r.0 == Some(user.value.id.value)
    ensures user.Some? && user.value.id.Null? ==> r.0 == None
    ensures user.Some? && Truthy(GetOr(user.value.displayName, "")) ==> r.1 == GetOr(user.value.displayName, "")
    ensures user.Some? ==> (Truthy(r.1) <==> Truthy(GetOr(user.value.displayName, "")) || Truthy(r.0))
    ensures user.Some? && !Truthy(GetOr(user.value.displayName, "")) ==> r.1 == r.0
  {
    match user
    case None => (Some(UNKNOWN_USER_ID), Some(UNKNOWN_USER_NAME))
    case Some(info) =>
      var id := GetOr(info.id, UNKNOWN_USER_ID);
      var displayName := if info.displayName.Present? then Some(info.displayName.value) else None;
      (id, if Truthy(displayName) then displayName else id)
  }

  /** The liked-songs record around a track list. */
  function LikedSongsRecord(user: Option<UserInfo>, tracks: seq<TrackRecord>): (r: CollectionRecord)
    ensures r.playlistName == LIKED_SONGS_NAME && r.playlistId == LIKED_SONGS_ID
    ensures r.description == Some(LIKED_SONGS_DESCRIPTION) && r.snapshotId == Some("")
    ensures (r.ownerId, r.owner) == LikedSongsOwner(user)
    ensures r.tracks == tracks
  {
    var owner := LikedSongsOwner(user);
    CollectionRecord(LIKED_SONGS_NAME, LIKED_SONGS_ID, owner.0, owner.1, Some(LIKED_SONGS_DESCRIPTION), Some(""), tracks)
  }

  /**
   `export_liked_songs`: no saved tracks gives `(0, 0)` and no write;
   otherwise `(1, n)` with the single liked-songs file holding one record whose
   `n` tracks are the saved tracks, and no other file touched.
   */
  function ExportLikedSongs(lib: Library, split: bool, prefixSplit: string, prefixSingle: string, dir: Directory): (r: Outcome)
    ensures GetUserSavedTracks(lib.savedTracks) == [] <==> r == Outcome(0, 0, dir)
    ensures r.collections <= 1
    ensures GetUserSavedTracks(lib.savedTracks) != [] ==> r.collections == 1
    ensures r.collections == 1 ==>
      var file := LikedSongsFileName(split, prefixSplit, prefixSingle);
      && file in r.dir
      && r.dir[file] == [LikedSongsRecord(lib.currentUser, GetUserSavedTracks(lib.savedTracks))]
      && r.tracks == |GetUserSavedTracks(lib.savedTracks)| > 0
      && r.dir.Keys == dir.Keys + {file}
      && (forall k :: k in dir && k != file ==> r.dir[k] == dir[k])
  {
    var tracks := GetUserSavedTracks(lib.savedTracks);
    if tracks == [] then Outcome(0, 0, dir)
    else
      Outcome(1, |tracks|, dir[LikedSongsFileName(split, prefixSplit, prefixSingle) := [LikedSongsRecord(lib.currentUser, tracks)]])
  }
}

=== FILE: names.dfy ===
/**
 Name handling: the comparison key used to match a playlist against the
 requested name, and the two ways a name is made safe for use as a file name.
 */
module Names {
  import opened Text

  /** The characters `\ / * ? : " < > |`, unsafe in file names. */
  predicate IsReserved(c: char)
  {
    c == '\\' || c == '/' || c == '*' || c == '?' || c == ':' || c == '"' || c == '<' || c == '>' || c == '|'
  }

  /** A Unicode general category in the Other (C*) or Symbol (S*) classes: control, format,
      surrogate, private use, unassigned, and math/currency/modifier/other symbols (emoji). */
  predicate IsDroppedCategory(cat: string)
  {
    |cat| > 0 && (cat[0] == 'C' || cat[0] == 'S')
  }

  /** A character the playlist-name sanitizer keeps in its first pass. */
  predicate IsValidChar(u: UnicodeDb, c: char)
  {
    !IsDroppedCategory(u.category(c))
  }

  function ValidChar(u: UnicodeDb): char -> bool
  {
    c => IsValidChar(u, c)
  }

  function Unreserved(): char -> bool
  {
    c => !IsReserved(c)
  }

  function SafeChar(u: UnicodeDb): char -> bool
  {
    c => IsValidChar(u, c) && !IsReserved(c)
  }

  function NotSpace(u: UnicodeDb): char -> bool
  {
    c => !u.isSpace(c)
  }

  /** A character that survives sanitizing wherever it stands in the name. */
  function Visible(u: UnicodeDb): char -> bool
  {
    c => IsValidChar(u, c) && !IsReserved(c) && !u.isSpace(c)
  }

  // ---------------------------------------------------------------------
  // sanitize_filename
  // ---------------------------------------------------------------------

  /**
   The older file-name sanitizer: every reserved character becomes `_`, every
   other character stays where it is.
   */
  function SanitizeFilename(name: string): (r: string)
    ensures |r| == |name|
    ensures forall i :: 0 <= i < |name| && IsReserved(name[i]) ==> r[i] == '_'
    ensures forall i :: 0 <= i < |name| && !IsReserved(name[i]) ==> r[i] == name[i]
    ensures forall i :: 0 <= i < |r| ==> !IsReserved(r[i])
  {
    if name == [] then []
    else [if IsReserved(name[0]) then '_' else name[0]] + SanitizeFilename(name[1..])
  }

  /** A name is left unchanged exactly when it holds no reserved character; so sanitizing twice is sanitizing once. */
  lemma {:induction false} SanitizeFilenameFixpoint(name: string)
    ensures SanitizeFilename(name) == name <==> forall i :: 0 <= i < |name| ==> !IsReserved(name[i])
    ensures SanitizeFilename(SanitizeFilename(name)) == SanitizeFilename(name)
  {
    var r := SanitizeFilename(name);
    if forall i :: 0 <= i < |name| ==> !IsReserved(name[i]) {
      assert r == name;
    }
    var rr := SanitizeFilename(r);
    assert rr == r;
  }

  // ---------------------------------------------------------------------
  // normalize_playlist_name
  // ---------------------------------------------------------------------

  /**
   The comparison key: stripped, lower-cased, and with every whitespace run
   collapsed to one space. The key has no whitespace at its ends and every
   whitespace character in it is a single space between two words.
   */
  function NormalizePlaylistName(u: UnicodeDb, name: string): (r: string)
    ensures name == [] ==> r == []
    ensures IsTrimmed(u, r)
    ensures SingleSpaced(u, r)
    ensures u.isSpace(' ') ==> forall i :: 0 <= i < |r| - 1 ==> !(r[i] == ' ' && r[i + 1] == ' ')
  {
    if name == [] then []
    else
      var ws := Words(u, Lower(u, Strip(u, name)));
      JoinShape(u, ws);
      Join(" ", ws)
  }

  /** The key is the words of the lower-cased name joined by single spaces; stripping first adds nothing. */
  lemma {:induction false} NormalizeAsWords(u: UnicodeDb, name: string)
    requires u.Wellformed()
    ensures NormalizePlaylistName(u, name) == Join(" ", Words(u, Lower(u, name)))
  {
    WordsOfLowerStrip(u, name);
  }

  /** Stripping before lower-casing and splitting changes no word: only whitespace is cut off. */
  lemma {:induction false} WordsOfLowerStrip(u: UnicodeDb, name: string)
    requires u.Wellformed()
    ensures Words(u, Lower(u, Strip(u, name))) == Words(u, Lower(u, name))
  {
    var a, st := LeadLen(u, name), Strip(u, name);
    var low := Lower(u, name);
    assert Lower(u, st) == low[a..a + |st|];
    forall k | 0 <= k < |low| && !(a <= k < a + |st|)
      ensures u.isSpace(low[k])
    {
      assert u.isSpace(u.lower(name[k])) == u.isSpace(name[k]);
    }
    WordsOfSlice(u, low, a, a + |st|);
  }

  /**
   Two names match exactly when their lower-cased forms have the same words:
   case and the length and placement of whitespace runs are ignored, and nothing else is.
   */
  lemma {:induction false} NormalizeMatchIffSameWords(u: UnicodeDb, a: string, b: string)
    requires u.Wellformed()
    ensures NormalizePlaylistName(u, a) == NormalizePlaylistName(u, b)
        <==> Words(u, Lower(u, a)) == Words(u, Lower(u, b))
  {
    NormalizeAsWords(u, a);
    NormalizeAsWords(u, b);
    WordsOfJoin(u, Words(u, Lower(u, a)));
    WordsOfJoin(u, Words(u, Lower(u, b)));
  }

  /** Names that differ only in letter case get the same key. */
  lemma {:induction false} NormalizeIgnoresCase(u: UnicodeDb, a: string, b: string)
    requires u.Wellformed()
    requires Lower(u, a) == Lower(u, b)
    ensures NormalizePlaylistName(u, a) == NormalizePlaylistName(u, b)
  {
    NormalizeMatchIffSameWords(u, a, b);
  }

  /** The key is empty exactly when the name is blank (empty or all whitespace). */
  lemma {:induction false} NormalizeEmptyIffBlank(u: UnicodeDb, name: string)
    requires u.Wellformed()
    ensures NormalizePlaylistName(u, name) == [] <==> forall i :: 0 <= i < |name| ==> u.isSpace(name[i])
  {
    var low := Lower(u, name);
    NormalizeAsWords(u, name);
    JoinEmptyIffNone(Words(u, low));
    WordsEmptyIffBlank(u, low);
    if forall i :: 0 <= i < |low| ==> u.isSpace(low[i]) {
      forall i | 0 <= i < |name|
        ensures u.isSpace(name[i])
      {
        assert u.isSpace(u.lower(name[i])) == u.isSpace(name[i]);
      }
    }
  }

  /** Normalizing a key again gives the same key. */
  lemma {:induction false} NormalizeIdempotent(u: UnicodeDb, name: string)
    requires u.Wellformed()
    ensures NormalizePlaylistName(u, NormalizePlaylistName(u, name)) == NormalizePlaylistName(u, name)
  {
    var low := Lower(u, name);
    var ws := Words(u, low);
    var key := Join(" ", ws);
    NormalizeAsWords(u, name);
    NormalizeAsWords(u, key);
    var fixed := (c: char) => u.lower(c) == c;
    forall i | 0 <= i < |low| && !u.isSpace(low[i])
      ensures fixed(low[i])
    {
      assert u.lower(u.lower(name[i])) == u.lower(name[i]);
    }
    WordsKeep(u, fixed, low);
    JoinKeeps(fixed, ws);
    var lowKey := Lower(u, key);
    forall i | 0 <= i < |key|
      ensures u.isSpace(key[i]) == u.isSpace(lowKey[i])
      ensures !u.isSpace(key[i]) ==> key[i] == lowKey[i]
    {
      assert u.isSpace(u.lower(key[i])) == u.isSpace(key[i]);
    }
    WordsRespectShape(u, key, lowKey);
    WordsOfJoin(u, ws);
  }

  // ---------------------------------------------------------------------
  // sanitize_playlist_name
  // ---------------------------------------------------------------------

  /**
   The file-name stem for a playlist: characters of the Other and Symbol
   categories are dropped, then reserved characters, then surrounding
   whitespace. Case and accents are kept because nothing is rewritten, only
   deleted: the result is a subsequence of the name, free of dropped and
   reserved characters, trimmed, and it keeps every visible character. It is
   one contiguous slice of the safe characters, so inner whitespace stays.
   */
  function SanitizePlaylistName(u: UnicodeDb, name: string): (r: string)
    ensures forall i :: 0 <= i < |r| ==> IsValidChar(u, r[i]) && !IsReserved(r[i])
    ensures IsTrimmed(u, r)
    ensures IsSubsequence(r, name)
    ensures Filter(NotSpace(u), r) == Filter(Visible(u), name)
    ensures var safe := Filter(SafeChar(u), name);
      && LeadLen(u, safe) + |r| <= |safe|
      && r == safe[LeadLen(u, safe)..LeadLen(u, safe) + |r|]
  {
    var kept := Filter(ValidChar(u), name);
    var safe := Filter(Unreserved(), kept);
    SanitizeSteps(u, name, kept, safe);
    Strip(u, safe)
  }

  /** The facts about the two filter passes and the strip that the sanitizer's contract rests on. */
  lemma {:induction false} SanitizeSteps(u: UnicodeDb, name: string, kept: string, safe: string)
    requires kept == Filter(ValidChar(u), name)
    requires safe == Filter(Unreserved(), kept)
    ensures forall i :: 0 <= i < |Strip(u, safe)| ==> IsValidChar(u, Strip(u, safe)[i]) && !IsReserved(Strip(u, safe)[i])
    ensures IsSubsequence(Strip(u, safe), name)
    ensures Filter(NotSpace(u), Strip(u, safe)) == Filter(Visible(u), name)
    ensures safe == Filter(SafeChar(u), name)
  {
    var a, r := LeadLen(u, safe), Strip(u, safe);
    FilterFilter(Unreserved(), ValidChar(u), SafeChar(u), name);
    FilterPasses(SafeChar(u), name);
    forall i | 0 <= i < |r|
      ensures IsValidChar(u, r[i]) && !IsReserved(r[i])
    {
      assert r[i] == safe[a + i];
      assert SafeChar(u)(safe[a + i]);
    }
    FilterIsSubsequence(ValidChar(u), name);
    FilterIsSubsequence(Unreserved(), kept);
    SliceIsSubsequence(safe, a, a + |r|);
    SubsequenceTransitive(safe, kept, name);
    SubsequenceTransitive(r, safe, name);
    FilterOfSlice(NotSpace(u), safe, a, a + |r|);
    FilterFilter(Unreserved(), ValidChar(u), SafeChar(u), name);
    FilterFilter(NotSpace(u), SafeChar(u), Visible(u), name);
  }

  /** A name that is already clean is its own stem; so sanitizing twice is sanitizing once. */
  lemma {:induction false} SanitizePlaylistNameFixpoint(u: UnicodeDb, name: string)
    ensures (forall i :: 0 <= i < |name| ==> IsValidChar(u, name[i]) && !IsReserved(name[i])) && IsTrimmed(u, name)
        ==> SanitizePlaylistName(u, name) == name
    ensures SanitizePlaylistName(u, SanitizePlaylistName(u, name)) == SanitizePlaylistName(u, name)
  {
    forall s | (forall i :: 0 <= i < |s| ==> IsValidChar(u, s[i]) && !IsReserved(s[i])) && IsTrimmed(u, s)
      ensures SanitizePlaylistName(u, s) == s
    {
      FilterAllKept(ValidChar(u), s);
      FilterAllKept(Unreserved(), s);
      StripTrimmed(u, s);
    }
  }
}

=== FILE: scenarios.dfy ===
/**
 Worked examples over a small character table: two spellings of a playlist
 name that match, and a name made safe for use as a file name.
 */
module Scenarios {
  import opened Text
  import opened Names

  /**
   A table that covers ASCII letters and ASCII whitespace, one emoji (a Symbol),
   the ASCII control characters, and treats everything else as a letter.
   */
  function SampleDb(): UnicodeDb
  {
    UnicodeDb(
      c => if 'A' <= c <= 'Z' then (c as int + 32) as char else c,
      c => c == ' ' || c == '\t' || c == '\n' || c == '\r',
      c => if c == '🎵' then "So"
           else if c < ' ' then "Cc"
           else if c == ' ' then "Zs"
           else "L")
  }

  lemma SampleDbWellformed()
    ensures SampleDb().Wellformed()
  {
  }

  lemma LowerExamples()
    ensures Lower(SampleDb(), "MY MIX") == "my mix"
    ensures Lower(SampleDb(), "  My   Mix ") == "  my   mix "
  {
  }

  lemma WordsOfSingleSpaced()
    ensures Words(SampleDb(), "my mix") == ["my", "mix"]
  {
    assert Join(" ", ["my", "mix"]) == "my mix";
    WordsOfJoin(SampleDb(), ["my", "mix"]);
  }

  lemma WordsOfMix()
    ensures Words(SampleDb(), "mix") == ["mix"]
  {
    WordsOfJoin(SampleDb(), ["mix"]);
  }

  lemma WordsOfInnerRun()
    ensures Words(SampleDb(), "my   mix") == ["my", "mix"]
  {
    assert "my   mix" == "my" + ("   " + "mix");
    WordsOfWordThenSpace(SampleDb(), "my", "   ", "mix");
    WordsOfMix();
  }

  lemma WordsOfTrailed()
    ensures Words(SampleDb(), "my   mix" + " ") == ["my", "mix"]
  {
    WordsSkipTrailing(SampleDb(), "my   mix", " ");
    WordsOfInnerRun();
  }

  lemma WordsOfPadded()
    ensures Words(SampleDb(), "  my   mix ") == ["my", "mix"]
  {
    assert "  my   mix " == "  " + ("my   mix" + " ");
    WordsSkipLeading(SampleDb(), "  ", "my   mix" + " ");
    WordsOfTrailed();
  }

  lemma PaddedAsWords()
    ensures NormalizePlaylistName(SampleDb(), "  My   Mix ") == Join(" ", Words(SampleDb(), Lower(SampleDb(), "  My   Mix ")))
  {
    SampleDbWellformed();
    NormalizeAsWords(SampleDb(), "  My   Mix ");
  }

  lemma PaddedWordsLowered()
    ensures Join(" ", Words(SampleDb(), Lower(SampleDb(), "  My   Mix "))) == Join(" ", Words(SampleDb(), "  my   mix "))
  {
    LowerExamples();
  }

  lemma JoinedKey()
    ensures Join(" ", ["my", "mix"]) == "my mix"
  {
  }

  lemma PaddedJoined()
    ensures Join(" ", Words(SampleDb(), "  my   mix ")) == "my mix"
  {
    WordsOfPadded();
    JoinedKey();
  }

  lemma NormalizePadded()
    ensures NormalizePlaylistName(SampleDb(), "  My   Mix ") == "my mix"
  {
    PaddedAsWords();
    PaddedWordsLowered();
    PaddedJoined();
  }

  lemma NormalizeShouted()
    ensures NormalizePlaylistName(SampleDb(), "MY MIX") == "my mix"
  {
    SampleDbWellformed();
    LowerExamples();
    WordsOfSingleSpaced();
    NormalizeAsWords(SampleDb(), "MY MIX");
    JoinedKey();
  }

  /** `"  My   Mix "` and `"MY MIX"` have the same key, so a filter given as either finds the other. */
  lemma NormalizeExample()
    ensures NormalizePlaylistName(SampleDb(), "  My   Mix ") == NormalizePlaylistName(SampleDb(), "MY MIX") == "my mix"
  {
    NormalizePadded();
    NormalizeShouted();
  }

  /** The first pass of the sanitizer drops the emoji. */
  lemma DropSymbols()
    ensures Filter(ValidChar(SampleDb()), " Mé/x 🎵") == " Mé/x "
  {
    var keep, text := ValidChar(SampleDb()), " Mé/x ";
    assert " Mé/x 🎵" == text + "🎵";
    FilterAppend(keep, text, "🎵");
    FilterAllKept(keep, text);
    FilterNone(keep, "🎵");
    assert text + [] == text;
  }

  /** The second pass drops the slash. */
  lemma DropReserved()
    ensures Filter(Unreserved(), " Mé/x ") == " Méx "
  {
  }

  lemma StripExample()
    ensures Strip(SampleDb(), " Méx ") == "Méx"
  {
    var u, s := SampleDb(), " Méx ";
    assert LeadLen(u, s) == 1 by {
      assert LeadLen(u, s[1..]) == 0;
    }
    assert s[1..] == "Méx ";
    assert TrailLen(u, "Méx ") == 1 by {
      assert "Méx "[..3] == "Méx";
    }
  }

  /** The emoji and the slash are dropped and the ends trimmed; the accent and the capital stay. */
  lemma SanitizeExample()
    ensures SanitizePlaylistName(SampleDb(), " Mé/x 🎵") == "Méx"
  {
    DropSymbols();
    DropReserved();
    StripExample();
  }
}

=== FILE: text.dfy ===
/**
 String primitives the name handling is built from, stated over an explicit
 Unicode table: Python's `str.strip`, `str.lower`, `str.split()` with no
 argument, `str.join`, and character filtering.
 */
module Text {

  /**
   The three lookups the names code makes into Unicode: `str.lower` on one
   character, `str.isspace`, and `unicodedata.category`. They are a parameter
   of the model rather than a copy of the database.
   */
  datatype UnicodeDb = UnicodeDb(lower: char -> char, isSpace: char -> bool, category: char -> string)
  {
    /** The facts about the real tables that the proofs rely on. */
    ghost predicate Wellformed()
    {
      && isSpace(' ')
      && (forall c :: lower(lower(c)) == lower(c))
      && (forall c :: isSpace(lower(c)) == isSpace(c))
    }
  }

  /** `str.lower`, one character at a time. */
  function Lower(u: UnicodeDb, s: string): (r: string)
    ensures |r| == |s|
    ensures forall i :: 0 <= i < |s| ==> r[i] == u.lower(s[i])
  {
    seq(|s|, i requires 0 <= i < |s| => u.lower(s[i]))
  }

  /** The characters of `s` that `keep` accepts, in their original order. */
  function Filter<T>(keep: T -> bool, s: seq<T>): (r: seq<T>)
    ensures |r| <= |s|
  {
    if s == [] then []
    else if keep(s[0]) then [s[0]] + Filter(keep, s[1..])
    else Filter(keep, s[1..])
  }

  /** Number of whitespace characters at the front of `s`. */
  function LeadLen(u: UnicodeDb, s: string): (n: nat)
    ensures n <= |s|
    ensures forall i :: 0 <= i < n ==> u.isSpace(s[i])
    ensures n < |s| ==> !u.isSpace(s[n])
  {
    if s != [] && u.isSpace(s[0]) then 1 + LeadLen(u, s[1..]) else 0
  }

  /** Number of whitespace characters at the back of `s`. */
  function TrailLen(u: UnicodeDb, s: string): (n: nat)
    ensures n <= |s|
    ensures forall i :: |s| - n <= i < |s| ==> u.isSpace(s[i])
    ensures n < |s| ==> !u.isSpace(s[|s| - n - 1])
  {
    if s != [] && u.isSpace(s[|s| - 1]) then 1 + TrailLen(u, s[..|s| - 1]) else 0
  }

  /** A string with no whitespace at either end. */
  predicate IsTrimmed(u: UnicodeDb, s: string)
  {
    s == [] || (!u.isSpace(s[0]) && !u.isSpace(s[|s| - 1]))
  }

  /**
   `str.strip()`: the slice of `s` that starts at `LeadLen(u, s)`, has no
   whitespace at either end, and still holds every non-whitespace character of `s`.
   */
  function Strip(u: UnicodeDb, s: string): (r: string)
    ensures LeadLen(u, s) + |r| <= |s|
    ensures r == s[LeadLen(u, s)..LeadLen(u, s) + |r|]
    ensures IsTrimmed(u, r)
    ensures forall i :: 0 <= i < |s| && !u.isSpace(s[i]) ==> LeadLen(u, s) <= i < LeadLen(u, s) + |r|
  {
    var t := s[LeadLen(u, s)..];
    t[..|t| - TrailLen(u, t)]
  }

  /** A non-empty run of non-whitespace characters: what `str.split()` yields. */
  predicate IsWord(u: UnicodeDb, w: string)
  {
    w != [] && forall i :: 0 <= i < |w| ==> !u.isSpace(w[i])
  }

  /** Length of the run of non-whitespace characters at the front of `s`. */
  function WordLen(u: UnicodeDb, s: string): (n: nat)
    ensures n <= |s|
    ensures forall i :: 0 <= i < n ==> !u.isSpace(s[i])
    ensures n < |s| ==> u.isSpace(s[n])
  {
    if s == [] || u.isSpace(s[0]) then 0 else 1 + WordLen(u, s[1..])
  }

  /** `str.split()` with no separator: the maximal whitespace-free runs, empty ones dropped. */
  function Words(u: UnicodeDb, s: string): (ws: seq<string>)
    ensures forall k :: 0 <= k < |ws| ==> IsWord(u, ws[k])
    decreases |s|
  {
    if s == [] then []
    else if u.isSpace(s[0]) then Words(u, s[1..])
    else
      var n := WordLen(u, s);
      [s[..n]] + Words(u, s[n..])
  }

  /** `sep.join(ws)`. */
  function Join(sep: string, ws: seq<string>): string
  {
    if |ws| == 0 then ""
    else if |ws| == 1 then ws[0]
    else ws[0] + sep + Join(sep, ws[1..])
  }

  /** `a` can be obtained from `b` by deleting characters. */
  predicate IsSubsequence<T(==)>(a: seq<T>, b: seq<T>)
    decreases |b|
  {
    if a == [] then true
    else if b == [] then false
    else (a[0] == b[0] && IsSubsequence(a[1..], b[1..])) || IsSubsequence(a, b[1..])
  }

  // ---------------------------------------------------------------------
  // Joining words with single spaces
  // ---------------------------------------------------------------------

  /** A word followed by whitespace (or by nothing) is read back whole. */
  lemma {:induction false} WordLenOfWord(u: UnicodeDb, w: string, rest: string)
    requires IsWord(u, w)
    requires rest == [] || u.isSpace(rest[0])
    ensures WordLen(u, w + rest) == |w|
    decreases |w|
  {
    if |w| > 1 {
      assert (w + rest)[1..] == w[1..] + rest;
      WordLenOfWord(u, w[1..], rest);
    } else {
      assert (w + rest)[1..] == rest;
    }
  }

  /** Splitting words joined with single spaces gives the words back. */
  lemma {:induction false} WordsOfJoin(u: UnicodeDb, ws: seq<string>)
    requires u.isSpace(' ')
    requires forall k :: 0 <= k < |ws| ==> IsWord(u, ws[k])
    ensures Words(u, Join(" ", ws)) == ws
    decreases |ws|
  {
    if |ws| == 1 {
      var w := ws[0];
      WordLenOfWord(u, w, []);
      assert w + [] == w;
      assert w[|w|..] == [];
    } else if |ws| > 1 {
      var w, tail := ws[0], Join(" ", ws[1..]);
      var s := w + " " + tail;
      assert s == w + (" " + tail);
      WordLenOfWord(u, w, " " + tail);
      assert s[..|w|] == w;
      assert s[|w|..] == " " + tail;
      assert (" " + tail)[1..] == tail;
      WordsOfJoin(u, ws[1..]);
    }
  }

  /**
   Words joined with single spaces have no whitespace at the ends, and every
   whitespace character inside is a lone separating space.
   */
  lemma {:induction false} JoinShape(u: UnicodeDb, ws: seq<string>)
    requires forall k :: 0 <= k < |ws| ==> IsWord(u, ws[k])
    ensures IsTrimmed(u, Join(" ", ws))
    ensures SingleSpaced(u, Join(" ", ws))
    decreases |ws|
  {
    if |ws| > 1 {
      var w, tail := ws[0], Join(" ", ws[1..]);
      JoinShape(u, ws[1..]);
      JoinNonEmpty(" ", ws[1..]);
      var s := w + " " + tail;
      forall i | 0 <= i < |s| && u.isSpace(s[i])
        ensures s[i] == ' ' && 0 < i < |s| - 1 && !u.isSpace(s[i - 1]) && !u.isSpace(s[i + 1])
      {
        if i > |w| {
          assert s[i] == tail[i - |w| - 1];
          if i - 1 > |w| {
            assert s[i - 1] == tail[i - |w| - 2];
          }
          assert s[i + 1] == tail[i - |w|];
        }
      }
    }
  }

  /** Every whitespace character of `s` is a space with a non-whitespace character on each side. */
  predicate SingleSpaced(u: UnicodeDb, s: string)
  {
    forall i :: 0 <= i < |s| && u.isSpace(s[i]) ==>
      s[i] == ' ' && 0 < i < |s| - 1 && !u.isSpace(s[i - 1]) && !u.isSpace(s[i + 1])
  }

  /** Joining strings the first of which is non-empty gives a non-empty string that starts with the first one. */
  lemma {:induction false} JoinNonEmpty(sep: string, ws: seq<string>)
    requires |ws| > 0 && ws[0] != []
    ensures |Join(sep, ws)| >= |ws[0]| > 0
    ensures Join(sep, ws)[..|ws[0]|] == ws[0]
  {
  }

  // ---------------------------------------------------------------------
  // What `str.split()` does not see
  // ---------------------------------------------------------------------

  /** Whitespace in front does not change the words. */
  lemma {:induction false} WordsSkipLeading(u: UnicodeDb, sp: string, s: string)
    requires forall i :: 0 <= i < |sp| ==> u.isSpace(sp[i])
    ensures Words(u, sp + s) == Words(u, s)
    decreases |sp|
  {
    if sp != [] {
      assert (sp + s)[1..] == sp[1..] + s;
      WordsSkipLeading(u, sp[1..], s);
    } else {
      assert sp + s == s;
    }
  }

  /** A word followed by a whitespace run is the first word; the rest is split on its own. */
  lemma {:induction false} WordsOfWordThenSpace(u: UnicodeDb, w: string, sp: string, rest: string)
    requires IsWord(u, w)
    requires sp != [] && forall i :: 0 <= i < |sp| ==> u.isSpace(sp[i])
    ensures Words(u, w + (sp + rest)) == [w] + Words(u, rest)
  {
    var s := w + (sp + rest);
    WordLenOfWord(u, w, sp + rest);
    assert s[0] == w[0];
    assert s[..|w|] == w && s[|w|..] == sp + rest;
    WordsSkipLeading(u, sp, rest);
  }

  /** Whitespace at the back does not change the words. */
  lemma {:induction false} WordsSkipTrailing(u: UnicodeDb, s: string, sp: string)
    requires forall i :: 0 <= i < |sp| ==> u.isSpace(sp[i])
    ensures Words(u, s + sp) == Words(u, s)
    decreases |s|
  {
    if s == [] {
      assert s + sp == sp + [];
      WordsSkipLeading(u, sp, []);
    } else if u.isSpace(s[0]) {
      assert (s + sp)[1..] == s[1..] + sp;
      WordsSkipTrailing(u, s[1..], sp);
    } else {
      var m := WordLen(u, s);
      var t := s + sp;
      if m < |s| {
        WordLenPrefix(u, s, sp);
        assert t[..m] == s[..m];
        assert t[m..] == s[m..] + sp;
        WordsSkipTrailing(u, s[m..], sp);
      } else {
        WordLenOfWord(u, s, sp);
        assert t[0] == s[0];
        assert t[..m] == s && t[m..] == sp;
        assert sp + [] == sp;
        WordsSkipLeading(u, sp, []);
        assert Words(u, t) == [s] + Words(u, sp);
        assert s[..m] == s && s[m..] == [];
        assert Words(u, s) == [s] + Words(u, []);
      }
    }
  }

  /** A word that ends inside `s` ends at the same place in any extension of `s`. */
  lemma {:induction false} WordLenPrefix(u: UnicodeDb, s: string, more: string)
    requires WordLen(u, s) < |s|
    ensures WordLen(u, s + more) == WordLen(u, s)
    decreases |s|
  {
    if s != [] && !u.isSpace(s[0]) {
      assert (s + more)[1..] == s[1..] + more;
      WordLenPrefix(u, s[1..], more);
    }
  }

  /** Cutting only whitespace off the ends of `s` does not change its words. */
  lemma {:induction false} WordsOfSlice(u: UnicodeDb, s: string, i: nat, j: nat)
    requires i <= j <= |s|
    requires forall k :: 0 <= k < |s| && !(i <= k < j) ==> u.isSpace(s[k])
    ensures Words(u, s[i..j]) == Words(u, s)
  {
    var front, mid, back := s[..i], s[i..j], s[j..];
    assert s == front + (mid + back);
    forall k | 0 <= k < |back|
      ensures u.isSpace(back[k])
    {
      assert back[k] == s[j + k];
    }
    WordsSkipTrailing(u, mid, back);
    WordsSkipLeading(u, front, mid + back);
  }

  /** Stripping first does not change the words. */
  lemma {:induction false} WordsOfStrip(u: UnicodeDb, s: string)
    ensures Words(u, Strip(u, s)) == Words(u, s)
  {
    var a, r := LeadLen(u, s), Strip(u, s);
    WordsOfSlice(u, s, a, a + |r|);
  }

  /** A string has no words exactly when it is all whitespace. */
  lemma {:induction false} WordsEmptyIffBlank(u: UnicodeDb, s: string)
    ensures Words(u, s) == [] <==> forall i :: 0 <= i < |s| ==> u.isSpace(s[i])
    decreases |s|
  {
    if s != [] && u.isSpace(s[0]) {
      WordsEmptyIffBlank(u, s[1..]);
      if forall i :: 0 <= i < |s[1..]| ==> u.isSpace(s[1..][i]) {
        forall i | 0 <= i < |s|
          ensures u.isSpace(s[i])
        {
          if i > 0 {
            assert s[i] == s[1..][i - 1];
          }
        }
      }
    }
  }

  /** Every character of every word satisfies `p` when every non-whitespace character of `s` does. */
  lemma {:induction false} WordsKeep(u: UnicodeDb, p: char -> bool, s: string)
    requires forall i :: 0 <= i < |s| && !u.isSpace(s[i]) ==> p(s[i])
    ensures forall k, j :: 0 <= k < |Words(u, s)| && 0 <= j < |Words(u, s)[k]| ==> p(Words(u, s)[k][j])
    decreases |s|
  {
    if s != [] {
      if u.isSpace(s[0]) {
        WordsKeep(u, p, s[1..]);
      } else {
        var n := WordLen(u, s);
        WordsKeep(u, p, s[n..]);
      }
    }
  }

  /** Joining with spaces introduces no character other than the space. */
  lemma {:induction false} JoinKeeps(p: char -> bool, ws: seq<string>)
    requires forall k, j :: 0 <= k < |ws| && 0 <= j < |ws[k]| ==> p(ws[k][j])
    ensures forall i :: 0 <= i < |Join(" ", ws)| ==> Join(" ", ws)[i] == ' ' || p(Join(" ", ws)[i])
    decreases |ws|
  {
    if |ws| > 1 {
      JoinKeeps(p, ws[1..]);
      var w, tail := ws[0], Join(" ", ws[1..]);
      var s := w + " " + tail;
      forall i | 0 <= i < |s|
        ensures s[i] == ' ' || p(s[i])
      {
        if i < |w| {
          assert s[i] == ws[0][i];
        } else if i > |w| {
          assert s[i] == tail[i - |w| - 1];
        }
      }
    }
  }

  /** A joined list of non-empty strings is empty exactly when the list is. */
  lemma {:induction false} JoinEmptyIffNone(ws: seq<string>)
    requires forall k :: 0 <= k < |ws| ==> ws[k] != []
    ensures Join(" ", ws) == [] <==> ws == []
  {
    if ws != [] {
      JoinNonEmpty(" ", ws);
    }
  }

  /**
   `str.split()` looks only at where the whitespace is and at the other
   characters: two strings that agree on both split the same way.
   */
  lemma {:induction false} WordsRespectShape(u: UnicodeDb, s: string, t: string)
    requires |s| == |t|
    requires forall i :: 0 <= i < |s| ==> u.isSpace(s[i]) == u.isSpace(t[i])
    requires forall i :: 0 <= i < |s| && !u.isSpace(s[i]) ==> s[i] == t[i]
    ensures Words(u, s) == Words(u, t)
    decreases |s|
  {
    if s != [] {
      if u.isSpace(s[0]) {
        WordsRespectShape(u, s[1..], t[1..]);
      } else {
        WordLenRespectShape(u, s, t);
        var n := WordLen(u, s);
        assert s[..n] == t[..n];
        WordsRespectShape(u, s[n..], t[n..]);
      }
    }
  }

  lemma {:induction false} WordLenRespectShape(u: UnicodeDb, s: string, t: string)
    requires |s| == |t|
    requires forall i :: 0 <= i < |s| ==> u.isSpace(s[i]) == u.isSpace(t[i])
    ensures WordLen(u, s) == WordLen(u, t)
    decreases |s|
  {
    if s != [] && !u.isSpace(s[0]) {
      WordLenRespectShape(u, s[1..], t[1..]);
    }
  }

  // ---------------------------------------------------------------------
  // Stripping
  // ---------------------------------------------------------------------

  /** Stripping a string that has no whitespace at its ends leaves it alone. */
  lemma {:induction false} StripTrimmed(u: UnicodeDb, s: string)
    requires IsTrimmed(u, s)
    ensures Strip(u, s) == s
  {
    var r := Strip(u, s);
    if s != [] {
      assert LeadLen(u, s) == 0;
      assert !u.isSpace(s[|s| - 1]);
    }
  }

  /** A string strips to nothing exactly when it is all whitespace. */
  lemma StripEmptyIffBlank(u: UnicodeDb, s: string)
    ensures Strip(u, s) == [] <==> forall i :: 0 <= i < |s| ==> u.isSpace(s[i])
  {
  }

  // ---------------------------------------------------------------------
  // Subsequences
  // ---------------------------------------------------------------------

  lemma {:induction false} SubsequenceTransitive<T>(a: seq<T>, b: seq<T>, c: seq<T>)
    requires IsSubsequence(a, b) && IsSubsequence(b, c)
    ensures IsSubsequence(a, c)
    decreases |c|
  {
    if a != [] {
      if IsSubsequence(b, c[1..]) {
        SubsequenceTransitive(a, b, c[1..]);
      } else if a[0] == b[0] && IsSubsequence(a[1..], b[1..]) {
        SubsequenceTransitive(a[1..], b[1..], c[1..]);
      } else {
        SubsequenceTransitive(a, b[1..], c[1..]);
      }
    }
  }

  lemma {:induction false} SubsequenceReflexive<T>(s: seq<T>)
    ensures IsSubsequence(s, s)
    decreases |s|
  {
    if s != [] {
      SubsequenceReflexive(s[1..]);
    }
  }

  lemma {:induction false} PrefixIsSubsequence<T>(s: seq<T>, n: nat)
    requires n <= |s|
    ensures IsSubsequence(s[..n], s)
    decreases |s|
  {
    if n > 0 {
      assert s[..n][1..] == s[1..][..n - 1];
      PrefixIsSubsequence(s[1..], n - 1);
    }
  }

  lemma {:induction false} SuffixIsSubsequence<T>(s: seq<T>, n: nat)
    requires n <= |s|
    ensures IsSubsequence(s[n..], s)
    decreases |s|
  {
    if n == 0 {
      SubsequenceReflexive(s);
    } else {
      assert s[n..] == s[1..][n - 1..];
      SuffixIsSubsequence(s[1..], n - 1);
    }
  }

  /** A contiguous slice is a subsequence. */
  lemma {:induction false} SliceIsSubsequence<T>(s: seq<T>, i: nat, j: nat)
    requires i <= j <= |s|
    ensures IsSubsequence(s[i..j], s)
  {
    assert s[i..j] == s[i..][..j - i];
    PrefixIsSubsequence(s[i..], j - i);
    SuffixIsSubsequence(s, i);
    SubsequenceTransitive(s[i..j], s[i..], s);
  }

  /** Filtering keeps a subsequence. */
  lemma {:induction false} FilterIsSubsequence<T>(keep: T -> bool, s: seq<T>)
    ensures IsSubsequence(Filter(keep, s), s)
    decreases |s|
  {
    if s != [] {
      FilterIsSubsequence(keep, s[1..]);
    }
  }

  /** Filtering a sequence whose every element passes changes nothing. */
  lemma {:induction false} FilterAllKept<T>(keep: T -> bool, s: seq<T>)
    requires forall i :: 0 <= i < |s| ==> keep(s[i])
    ensures Filter(keep, s) == s
    decreases |s|
  {
    if s != [] {
      FilterAllKept(keep, s[1..]);
    }
  }

  /** Everything a filter keeps passes it. */
  lemma {:induction false} FilterPasses<T>(keep: T -> bool, s: seq<T>)
    ensures forall i :: 0 <= i < |Filter(keep, s)| ==> keep(Filter(keep, s)[i])
    decreases |s|
  {
    if s != [] {
      FilterPasses(keep, s[1..]);
    }
  }

  lemma {:induction false} FilterAppend<T>(keep: T -> bool, a: seq<T>, b: seq<T>)
    ensures Filter(keep, a + b) == Filter(keep, a) + Filter(keep, b)
    decreases |a|
  {
    if a == [] {
      assert a + b == b;
    } else {
      assert (a + b)[1..] == a[1..] + b;
      FilterAppend(keep, a[1..], b);
    }
  }

  lemma {:induction false} FilterNone<T>(keep: T -> bool, s: seq<T>)
    requires forall i :: 0 <= i < |s| ==> !keep(s[i])
    ensures Filter(keep, s) == []
    decreases |s|
  {
    if s != [] {
      FilterNone(keep, s[1..]);
    }
  }

  /** Two filters in a row are one filter by the conjunction. */
  lemma {:induction false} FilterFilter<T>(p: T -> bool, q: T -> bool, pq: T -> bool, s: seq<T>)
    requires forall x :: pq(x) == (q(x) && p(x))
    ensures Filter(p, Filter(q, s)) == Filter(pq, s)
    decreases |s|
  {
    if s != [] {
      FilterFilter(p, q, pq, s[1..]);
    }
  }

  /** Rejected elements around a run do not change what the filter keeps. */
  lemma {:induction false} FilterDropsEnds<T>(keep: T -> bool, front: seq<T>, mid: seq<T>, back: seq<T>)
    requires forall k :: 0 <= k < |front| ==> !keep(front[k])
    requires forall k :: 0 <= k < |back| ==> !keep(back[k])
    ensures Filter(keep, front + (mid + back)) == Filter(keep, mid)
  {
    FilterNone(keep, front);
    FilterNone(keep, back);
    FilterAppend(keep, front, mid + back);
    FilterAppend(keep, mid, back);
    assert [] + (Filter(keep, mid) + []) == Filter(keep, mid);
  }

  /** Cutting off only elements the filter rejects does not change what it keeps. */
  lemma {:induction false} FilterOfSlice<T>(keep: T -> bool, s: seq<T>, i: nat, j: nat)
    requires i <= j <= |s|
    requires forall k :: 0 <= k < |s| && !(i <= k < j) ==> !keep(s[k])
    ensures Filter(keep, s[i..j]) == Filter(keep, s)
  {
    var front, mid, back := s[..i], s[i..j], s[j..];
    forall k | 0 <= k < |front|
      ensures !keep(front[k])
    {
      assert front[k] == s[k];
    }
    forall k | 0 <= k < |back|
      ensures !keep(back[k])
    {
      assert back[k] == s[j + k];
    }
    assert s == front + (mid + back);
    FilterDropsEnds(keep, front, mid, back);
  }
}

=== FILE: tracks.dfy ===
/**
 The track record mapper and the paginator: raw page items as the remote
 catalog returns them, the record each item is mapped to, and the walk over a
 chain of pages whose later fetches may fail.
 */
module Tracks {
  import opened Values
  import opened Text

  // ---------------------------------------------------------------------
  // Raw items
  // ---------------------------------------------------------------------

  /** One entry of a track's `artists` list; anything but a mapping makes `.get` raise. */
  datatype RawArtist = ArtistObject(name: Field<string>) | ArtistNotAnObject

  /** A track's `album` value. */
  datatype RawAlbum = AlbumObject(name: Field<string>, releaseDate: Field<string>) | AlbumNotAnObject

  /** A track's `external_urls` value. */
  datatype RawUrls = UrlsObject(spotify: Field<string>) | UrlsNotAnObject

  /** An item's `added_by` value when it is truthy; falsy non-mappings are modelled as `Null`. */
  datatype RawUser = UserObject(id: Field<string>) | UserNotAnObject

  /**
   An item's `track` payload when present and not `null`. `otherKeys` records
   whether the mapping holds keys the mapper does not read, which decides
   whether a mapping without any of the five read keys is the falsy `{}`.
   Falsy non-mappings are modelled as `Null`; `TrackNotAnObject` is a truthy one.
   */
  datatype RawTrack =
    | TrackObject(name: Field<string>, artists: Field<seq<RawArtist>>, album: Field<RawAlbum>,
                  externalUrls: Field<RawUrls>, uri: Field<string>, otherKeys: bool)
    | TrackNotAnObject

  /** One element of a page's `items` list. */
  datatype RawItem = RawItem(track: Field<RawTrack>, addedAt: Field<string>, addedBy: Field<RawUser>)

  /** One emitted track, with the keys of the written JSON object. `None` is a JSON `null`. */
  datatype TrackRecord = TrackRecord(
    position: nat,
    name: Option<string>,
    artist: string,
    album: Option<string>,
    albumReleaseDate: Option<string>,
    spotifyUrl: Option<string>,
    spotifyUri: Option<string>,
    addedAt: Option<string>,
    addedBy: Option<string>)

  /** What the mapper does with one item: skip it for want of a track, skip it because extraction raised, or emit a record. */
  datatype Extraction = NoTrack | Failed | Mapped(record: TrackRecord)

  const UNKNOWN_TRACK := "Unknown Track"
  const UNKNOWN_ARTIST := "Unknown Artist"
  const UNKNOWN_ALBUM := "Unknown Album"

  /** The item's `track` is truthy: present, not `null`, and not the empty mapping. */
  predicate HasTrack(item: RawItem)
  {
    && item.track.Present?
    && match item.track.value
       case TrackNotAnObject => true
       case TrackObject(name, artists, album, urls, uri, other) =>
         other || !(name.Absent? && artists.Absent? && album.Absent? && urls.Absent? && uri.Absent?)
  }

  /**
   The item's payload makes one of the mapper's lookups raise: the payload or
   one of its nested values is not a mapping, `artists` is `null` or holds a
   non-mapping, `album` or `external_urls` is `null`, or `added_by` is a truthy non-mapping.
   */
  predicate Malformed(item: RawItem)
    requires item.track.Present?
  {
    match item.track.value
    case TrackNotAnObject => true
    case TrackObject(_, artists, album, urls, _, _) =>
      || artists.Null?
      || (artists.Present? && exists i :: 0 <= i < |artists.value| && artists.value[i].ArtistNotAnObject?)
      || album.Null? || (album.Present? && album.value.AlbumNotAnObject?)
      || urls.Null? || (urls.Present? && urls.value.UrlsNotAnObject?)
      || (item.addedBy.Present? && item.addedBy.value.UserNotAnObject?)
  }

  /** The items the mapper emits a record for. */
  predicate Emits(item: RawItem)
  {
    HasTrack(item) && !Malformed(item)
  }

  function EmitsFn(): RawItem -> bool
  {
    item => Emits(item)
  }

  // ---------------------------------------------------------------------
  // Field extraction
  // ---------------------------------------------------------------------

  /** The truthy artist names, in list order; raises on an entry that is not a mapping. */
  function ArtistNames(artists: seq<RawArtist>): (r: Result<seq<string>>)
    ensures r.Failure? <==> exists i :: 0 <= i < |artists| && artists[i].ArtistNotAnObject?
    ensures r.Success? ==> |r.value| <= |artists| && forall k :: 0 <= k < |r.value| ==> r.value[k] != ""
  {
    if artists == [] then Success([])
    else
      var rest := ArtistNames(artists[1..]);
      match artists[0]
      case ArtistNotAnObject => Failure
      case ArtistObject(n) =>
        if rest.Failure? then Failure
        else if n.Present? && n.value != "" then Success([n.value] + rest.value)
        else rest
  }

  /** An artist entry the list comprehension keeps: a mapping whose `name` is truthy. */
  predicate Named(a: RawArtist)
  {
    a.ArtistObject? && a.name.Present? && a.name.value != ""
  }

  function NamedFn(): RawArtist -> bool
  {
    a => Named(a)
  }

  /**
   When no entry raises, the names are exactly those of the named entries, one
   each, in list order: name `k` is the name of the `k`-th named entry.
   */
  lemma {:induction false} ArtistNamesInOrder(artists: seq<RawArtist>)
    requires ArtistNames(artists).Success?
    ensures |ArtistNames(artists).value| == |Filter(NamedFn(), artists)|
    ensures forall k :: 0 <= k < |ArtistNames(artists).value| ==>
      Named(Filter(NamedFn(), artists)[k]) && ArtistNames(artists).value[k] == Filter(NamedFn(), artists)[k].name.value
    decreases |artists|
  {
    if artists != [] {
      ArtistNamesInOrder(artists[1..]);
      FilterPasses(NamedFn(), artists[1..]);
      if Named(artists[0]) {
        assert Filter(NamedFn(), artists) == [artists[0]] + Filter(NamedFn(), artists[1..]);
      } else {
        assert Filter(NamedFn(), artists) == Filter(NamedFn(), artists[1..]);
      }
    }
  }

  /** When every artist is a mapping with a non-empty name, every name is kept, in order. */
  lemma {:induction false} ArtistNamesAllNamed(artists: seq<RawArtist>)
    requires forall i :: 0 <= i < |artists| ==> artists[i].ArtistObject? && artists[i].name.Present? && artists[i].name.value != ""
    ensures ArtistNames(artists).Success?
    ensures |ArtistNames(artists).value| == |artists|
    ensures forall i :: 0 <= i < |artists| ==> ArtistNames(artists).value[i] == artists[i].name.value
  {
    if artists != [] {
      ArtistNamesAllNamed(artists[1..]);
    }
  }

  /**
   The `artist` field: the `", "`-join of the truthy artist names, or
   `"Unknown Artist"` when there are none. Never empty.
   */
  function ArtistField(artists: Field<seq<RawArtist>>): (r: Result<string>)
    ensures r.Failure? <==> artists.Null? || (artists.Present? && ArtistNames(artists.value).Failure?)
    ensures r.Success? ==> r.value != ""
    ensures r.Success? && artists.Absent? ==> r.value == UNKNOWN_ARTIST
    ensures r.Success? && artists.Present? && ArtistNames(artists.value).value == [] ==> r.value == UNKNOWN_ARTIST
    ensures r.Success? && artists.Present? && ArtistNames(artists.value).value != []
        ==> r.value == Join(", ", ArtistNames(artists.value).value) && ArtistNames(artists.value).value[0] <= r.value
  {
    match artists
    case Absent => Success(UNKNOWN_ARTIST)
    case Null => Failure
    case Present(list) =>
      var names := ArtistNames(list);
      if names.Failure? then Failure
      else
        var joined := Join(", ", names.value);
        assert names.value != [] ==> joined != "" && names.value[0] <= joined by {
          if names.value != [] { JoinNonEmpty(", ", names.value); }
        }
        Success(if joined == "" then UNKNOWN_ARTIST else joined)
  }

  /**
   `(album name, release date)`; an absent album reads as `{}`, a `null` or
   non-mapping one raises. Each key of a present album gets its default only
   when it is absent; a `null` value stays `null`.
   */
  function AlbumFields(album: Field<RawAlbum>): (r: Result<(Option<string>, Option<string>)>)
    ensures r.Failure? <==> album.Null? || (album.Present? && album.value.AlbumNotAnObject?)
    ensures album.Absent? ==> r == Success((Some(UNKNOWN_ALBUM), Some("")))
    ensures r.Success? && album.Present? ==> r.value.0 == GetOr(album.value.name, UNKNOWN_ALBUM)
    ensures r.Success? && album.Present? ==> r.value.1 == GetOr(album.value.releaseDate, "")
  {
    match album
    case Absent => Success((Some(UNKNOWN_ALBUM), Some("")))
    case Null => Failure
    case Present(AlbumNotAnObject) => Failure
    case Present(AlbumObject(n, d)) => Success((GetOr(n, UNKNOWN_ALBUM), GetOr(d, "")))
  }

  /**
   `external_urls.spotify`; an absent mapping reads as `{}`, a `null` or
   non-mapping one raises. A missing `spotify` key gives `""`; a `null` one stays `null`.
   */
  function SpotifyUrl(urls: Field<RawUrls>): (r: Result<Option<string>>)
    ensures r.Failure? <==> urls.Null? || (urls.Present? && urls.value.UrlsNotAnObject?)
    ensures urls.Absent? ==> r == Success(Some(""))
    ensures r.Success? && urls.Present? ==> r.value == GetOr(urls.value.spotify, "")
  {
    match urls
    case Absent => Success(Some(""))
    case Null => Failure
    case Present(UrlsNotAnObject) => Failure
    case Present(UrlsObject(s)) => Success(GetOr(s, ""))
  }

  /** `added_by.id` when `added_by` is truthy, otherwise `null`; a truthy non-mapping raises. */
  function AddedById(addedBy: Field<RawUser>): (r: Result<Option<string>>)
    ensures r.Failure? <==> addedBy.Present? && addedBy.value.UserNotAnObject?
    ensures addedBy.Absent? || addedBy.Null? ==> r == Success(None)
    ensures r.Success? && r.value.Some? <==> addedBy.Present? && addedBy.value.UserObject? && addedBy.value.id.Present?
    ensures r.Success? && r.value.Some? ==> r.value.value == addedBy.value.id.value
  {
    match addedBy
    case Absent => Success(None)
    case Null => Success(None)
    case Present(UserNotAnObject) => Failure
    case Present(UserObject(id)) => Success(if id.Present? then Some(id.value) else None)
  }

  /**
   Maps one item at the given running position. An item without a truthy
   track is skipped, an item whose extraction raises is skipped, and every
   other item yields a record at exactly that position with a non-empty
   artist, every other field read by its own lookup, whose default applies
   only to an absent key.
   */
  function ExtractTrack(item: RawItem, position: nat): (r: Extraction)
    ensures r.NoTrack? <==> !HasTrack(item)
    ensures r.Failed? <==> HasTrack(item) && Malformed(item)
    ensures r.Mapped? <==> Emits(item)
    ensures r.Mapped? ==> r.record.position == position && r.record.artist != ""
    ensures r.Mapped? ==>
      && item.track.value.TrackObject?
      && ArtistField(item.track.value.artists).Success?
      && r.record.artist == ArtistField(item.track.value.artists).value
    ensures r.Mapped? ==>
      var t, rec := item.track.value, r.record;
      && rec.name == GetOr(t.name, UNKNOWN_TRACK)
      && AlbumFields(t.album).Success? && (rec.album, rec.albumReleaseDate) == AlbumFields(t.album).value
      && SpotifyUrl(t.externalUrls).Success? && rec.spotifyUrl == SpotifyUrl(t.externalUrls).value
      && rec.spotifyUri == GetOr(t.uri, "")
      && rec.addedAt == GetOr(item.addedAt, "")
      && AddedById(item.addedBy).Success? && rec.addedBy == AddedById(item.addedBy).value
  {
    if !HasTrack(item) then NoTrack
    else
      match item.track.value
      case TrackNotAnObject => Failed
      case TrackObject(name, artists, album, urls, uri, _) =>
        var artist := ArtistField(artists);
        var albumFields := AlbumFields(album);
        var url := SpotifyUrl(urls);
        var addedBy := AddedById(item.addedBy);
        if artist.Failure? || albumFields.Failure? || url.Failure? || addedBy.Failure? then Failed
        else
          Mapped(TrackRecord(
            position,
            GetOr(name, UNKNOWN_TRACK),
            artist.value,
            albumFields.value.0,
            albumFields.value.1,
            url.value,
            GetOr(uri, ""),
            GetOr(item.addedAt, ""),
            addedBy.value))
  }

  // ---------------------------------------------------------------------
  // Mapping a run of items
  // ---------------------------------------------------------------------

  /**
   Maps items in order with a counter that starts at `start` and advances only
   when a record is emitted. The records are exactly those of the emitting
   items, one each, in order, at positions `start`, `start + 1`, ...
   */
  function MapItems(items: seq<RawItem>, start: nat): (r: seq<TrackRecord>)
    ensures |r| <= |items|
    ensures forall i :: 0 <= i < |r| ==> r[i].position == start + i
    decreases |items|
  {
    if items == [] then []
    else
      match ExtractTrack(items[0], start)
      case Mapped(record) => [record] + MapItems(items[1..], start + 1)
      case _ => MapItems(items[1..], start)
  }

  /** Record `i` is what the `i`-th emitting item maps to at position `start + i`: nothing else is emitted, nothing is reordered. */
  lemma {:induction false} MapItemsEmitsInOrder(items: seq<RawItem>, start: nat)
    ensures |MapItems(items, start)| == |Filter(EmitsFn(), items)|
    ensures forall i :: 0 <= i < |MapItems(items, start)| ==>
      ExtractTrack(Filter(EmitsFn(), items)[i], start + i) == Mapped(MapItems(items, start)[i])
    decreases |items|
  {
    if items != [] {
      var e := ExtractTrack(items[0], start);
      if e.Mapped? {
        MapItemsEmitsInOrder(items[1..], start + 1);
        assert Filter(EmitsFn(), items) == [items[0]] + Filter(EmitsFn(), items[1..]);
        assert MapItems(items, start) == [e.record] + MapItems(items[1..], start + 1);
      } else {
        MapItemsEmitsInOrder(items[1..], start);
        assert Filter(EmitsFn(), items) == Filter(EmitsFn(), items[1..]);
        assert MapItems(items, start) == MapItems(items[1..], start);
      }
    }
  }

  /** Mapping two runs one after the other is mapping their concatenation: the counter carries over. */
  lemma {:induction false} MapItemsAppend(a: seq<RawItem>, b: seq<RawItem>, start: nat)
    ensures MapItems(a + b, start) == MapItems(a, start) + MapItems(b, start + |MapItems(a, start)|)
    decreases |a|
  {
    if a == [] {
      assert a + b == b;
    } else {
      assert (a + b)[1..] == a[1..] + b;
      assert (a + b)[0] == a[0];
      var e := ExtractTrack(a[0], start);
      if e.Mapped? {
        MapItemsAppend(a[1..], b, start + 1);
        assert MapItems(a + b, start) == [e.record] + MapItems(a[1..] + b, start + 1);
        assert MapItems(a, start) == [e.record] + MapItems(a[1..], start + 1);
      } else {
        MapItemsAppend(a[1..], b, start);
        assert MapItems(a + b, start) == MapItems(a[1..] + b, start);
        assert MapItems(a, start) == MapItems(a[1..], start);
      }
    }
  }

  /** Mapping one more item appends its record, if it emits one, at the next position. */
  lemma {:induction false} MapItemsSnoc(items: seq<RawItem>, item: RawItem)
    ensures
      var e := ExtractTrack(item, |MapItems(items, 0)|);
      MapItems(items + [item], 0) == MapItems(items, 0) + (if e.Mapped? then [e.record] else [])
  {
    MapItemsAppend(items, [item], 0);
    var e := ExtractTrack(item, |MapItems(items, 0)|);
    assert [item][1..] == [];
    assert MapItems([item], |MapItems(items, 0)|) == (if e.Mapped? then [e.record] else []);
  }

  // ---------------------------------------------------------------------
  // Pagination
  // ---------------------------------------------------------------------

  /** One fetched page and what fetching its successor yields. */
  datatype Page = Page(items: seq<RawItem>, next: NextLink)

  /** The page has no `next` cursor, or fetching `next` raised, or it returned the next page. */
  datatype NextLink = NoNext | NextFailed | NextPage(page: Page)

  /** The number of pages that get fetched, this one included. */
  function PageCount(p: Page): nat
  {
    1 + (if p.next.NextPage? then PageCount(p.next.page) else 0)
  }

  /** The items of every fetched page, page after page. */
  function FetchedItems(p: Page): seq<RawItem>
  {
    p.items + (if p.next.NextPage? then FetchedItems(p.next.page) else [])
  }

  /** The tracks the paginator gathers from a first page, as a function. */
  function CollectTracks(p: Page): seq<TrackRecord>
  {
    MapItems(FetchedItems(p), 0)
  }

  /**
   `_process_tracks_data`: walks the page chain, maps every item of every
   page with one counter, and stops after a page without `next` or when
   fetching `next` fails. Positions are exactly `0..N-1` and `N` is at most the
   number of items on the fetched pages.
   */
  method ProcessTracksData(first: Page) returns (tracks: seq<TrackRecord>)
    ensures tracks == MapItems(FetchedItems(first), 0)
    ensures |tracks| <= |FetchedItems(first)|
    ensures forall i :: 0 <= i < |tracks| ==> tracks[i].position == i
  {
    tracks := [];
    var trackIndex := 0;
    var data: Option<Page> := Some(first);
    ghost var seen: seq<RawItem> := [];
    while data.Some?
      invariant trackIndex == |tracks|
      invariant tracks == MapItems(seen, 0)
      invariant data.Some? ==> seen + FetchedItems(data.value) == FetchedItems(first)
      invariant data.None? ==> seen == FetchedItems(first)
      decreases if data.Some? then PageCount(data.value) else 0
    {
      var page := data.value;
      var j := 0;
      assert seen + page.items[..0] == seen;
      while j < |page.items|
        invariant j <= |page.items|
        invariant trackIndex == |tracks|
        invariant tracks == MapItems(seen + page.items[..j], 0)
      {
        var item := page.items[j];
        MapItemsSnoc(seen + page.items[..j], item);
        assert seen + page.items[..j + 1] == (seen + page.items[..j]) + [item];
        var extraction := ExtractTrack(item, trackIndex);
        if extraction.Mapped? {
          tracks := tracks + [extraction.record];
          trackIndex := trackIndex + 1;
        }
        j := j + 1;
      }
      assert page.items[..|page.items|] == page.items;
      seen := seen + page.items;
      data := if page.next.NextPage? then Some(page.next.page) else None;
    }
  }

  /** `get_playlist_tracks`: an id the catalog cannot serve yields no tracks; otherwise the paginator's tracks. */
  function GetPlaylistTracks(playlistItems: map<string, Page>, playlistId: string): (r: seq<TrackRecord>)
    ensures playlistId !in playlistItems ==> r == []
    ensures playlistId in playlistItems ==> r == MapItems(FetchedItems(playlistItems[playlistId]), 0)
    ensures playlistId in playlistItems ==> |r| <= |FetchedItems(playlistItems[playlistId])|
    ensures forall i :: 0 <= i < |r| ==> r[i].position == i
  {
    if playlistId in playlistItems then CollectTracks(playlistItems[playlistId]) else []
  }

  /** `get_user_saved_tracks`: a failed first fetch yields no tracks; otherwise the paginator's tracks. */
  function GetUserSavedTracks(saved: Option<Page>): (r: seq<TrackRecord>)
    ensures saved.None? ==> r == []
    ensures saved.Some? ==> r == MapItems(FetchedItems(saved.value), 0)
    ensures saved.Some? ==> |r| <= |FetchedItems(saved.value)|
    ensures forall i :: 0 <= i < |r| ==> r[i].position == i
  {
    if saved.Some? then CollectTracks(saved.value) else []
  }

  // ---------------------------------------------------------------------
  // Pagination properties
  // ---------------------------------------------------------------------

  /**
   Pages are processed in order: the first page's tracks come first, and the
   later pages' tracks follow with positions continuing from there.
   */
  lemma {:induction false} PagesInOrder(p: Page)
    requires p.next.NextPage?
    ensures CollectTracks(p)
         == MapItems(p.items, 0) + MapItems(FetchedItems(p.next.page), |MapItems(p.items, 0)|)
  {
    MapItemsAppend(p.items, FetchedItems(p.next.page), 0);
  }

  /** The same page chain, except that fetching the page after the `k`-th one (counting from 0) fails. */
  function FailAfter(p: Page, k: nat): Page
    decreases k
  {
    match p.next
    case NextPage(q) => Page(p.items, if k == 0 then NextFailed else NextPage(FailAfter(q, k - 1)))
    case _ => p
  }

  lemma {:induction false} FailAfterFetchesPrefix(p: Page, k: nat)
    ensures FetchedItems(FailAfter(p, k)) <= FetchedItems(p)
    ensures p.items <= FetchedItems(FailAfter(p, k))
    decreases k
  {
    if p.next.NextPage? && k > 0 {
      FailAfterFetchesPrefix(p.next.page, k - 1);
    }
  }

  /**
   A failed `next` fetch ends the walk without losing anything gathered
   before it: the tracks are a prefix of those of the unbroken chain, and they
   include every track of the first page.
   */
  lemma {:induction false} FailedNextKeepsEarlierTracks(p: Page, k: nat)
    ensures CollectTracks(FailAfter(p, k)) <= CollectTracks(p)
    ensures MapItems(p.items, 0) <= CollectTracks(FailAfter(p, k))
  {
    var short, full := FetchedItems(FailAfter(p, k)), FetchedItems(p);
    FailAfterFetchesPrefix(p, k);
    assert full == short + full[|short|..];
    MapItemsAppend(short, full[|short|..], 0);
    assert short == p.items + short[|p.items|..];
    MapItemsAppend(p.items, short[|p.items|..], 0);
  }
}

=== FILE: values.dfy ===
/**
 Value shapes shared by the whole model: optional values, results of
 operations that may raise, and the three states a key of a decoded JSON
 object can be in.
 */
module Values {

  /** A value that may be JSON `null` (Python `None`). */
  datatype Option<+T> = None | Some(value: T)

  /** The outcome of a computation that may raise an exception. */
  datatype Result<+T> = Success(value: T) | Failure

  /** One key of a decoded JSON object: missing, present with `null`, or present with a value. */
  datatype Field<+T> = Absent | Null | Present(value: T)

  /** Python's `d.get(key, default)`: the default only when the key is missing; `null` passes through. */
  function GetOr<T>(f: Field<T>, default: T): Option<T>
  {
    match f
    case Absent => Some(default)
    case Null => None
    case Present(v) => Some(v)
  }

  /** Python truthiness of an optional string: `None` and `''` are false. */
  predicate Truthy(s: Option<string>)
  {
    s.Some? && s.value != ""
  }
}
